=== FILE: README.md ===
# Smart JSON formatter: local recovery parse and structural diff

A Dafny model of `services/jsonUtils.ts`, the core of a browser tool that
repairs, formats and compares JSON. The model covers two operations:

- **`smartLocalParse`**: a fixed chain of attempts to turn loose text into a
  JSON value without calling any remote service. It trims the input and
  rejects blank input. Then it parses the text directly; a JSON string
  result is parsed one level further when its contents parse. If that fails,
  it parses the text with every CR and LF deleted. If that fails too, it
  parses a heuristic rewrite: Python's `None`/`True`/`False` become
  `null`/`true`/`false` as whole words, commas before a closing bracket are
  dropped, and, when the text opens an object or array, single-quoted
  literals become double-quoted ones with their inner `"` escaped. When
  everything fails it reports a fixed message.
- **`generateDiff`**: a tree of nodes tagged unchanged, added, removed or
  updated. It compares two JSON values index by index for arrays, and key
  by key over the union of both objects' keys.

`JSON.parse` is a parameter `parse: string -> Option<Json>`, so every
property about the parse chain holds for every parser. The four regular
expression rewrites are modelled as the left-to-right scans that a global
`replace` performs, and each is characterised independently of its scan:
the trailing-comma scan is proved equal to a position-by-position reference
definition; the Python-literal rewrites are described position by position;
line-break removal by how it splits over concatenation and which characters
it keeps; the single-quote scan by reading its pieces back (nothing is lost),
by where it takes its literals (every literal it reaches, and a quote left
alone only where none can start) and by what each literal becomes. Where a
literal starts is tied both ways to the independent grammar `IsBody` of
`(?:[^'\\]|\\.)*`: every body the scan takes matches it (`ScanBodies`), and a
quote, a run matching it and a quote always form the literal the scan takes,
with exactly that run as its body (`LiteralFromBody`), escaped quotes
included. The diff is written twice: as the recursive function
`StructuralDiff.Diff`, and as the method `StructuralDiff.GenerateDiff`, which
builds the children with loops and a `hasChanges` flag the way the source
does. The method is proved equal to the function.

Files: `options.dfy` (Option), `json_value.dfy` (JSON values, `typeof`,
`===`, own-key lookup, equality up to member order), `text.dfy` (trim and
line-break removal), `word_replace.dfy` (`\bWord\b` rewrites),
`trailing_commas.dfy`, `single_quotes.dfy`, `local_parse.dfy`
(`smartLocalParse`), `diff_keys.dfy` (index keys and the key union),
`structural_diff.dfy` (`generateDiff`), `diff_properties.dfy`,
`prototype_keys.dfy` (the finding below) and `examples.dfy` (concrete
inputs).

## Model

| member | source | states |
|---|---|---|
| JsonValue.TypeOf | services/jsonUtils.ts:117 | `typeof` answers "object" exactly for null, arrays and objects |
| JsonValue.KeysOf | services/jsonUtils.ts:144 | `Object.keys` gives one key per member, in member order |
| JsonValue.Find | services/jsonUtils.ts:148-151 | own-key lookup: absent exactly when the key is not among the object's keys; otherwise it gives the first member with that key |
| JsonValue.FindDistinct | services/jsonUtils.ts:148-155 | in an object with distinct keys, looking up a member's key finds that member |
| Text.Trim | services/jsonUtils.ts:9-13 | `trim()` is empty exactly for all-whitespace input; otherwise it neither starts nor ends with whitespace, and it is the input minus a whitespace prefix and a whitespace suffix |
| Text.RemoveLineBreaks | services/jsonUtils.ts:41 | the single-line text has no CR or LF, is no longer than the input, and equals the input when the input has no line break |
| Text.RemoveLineBreaksAppend | services/jsonUtils.ts:41 | deleting line breaks distributes over concatenation |
| Text.RemoveLineBreaksKeeps | services/jsonUtils.ts:41 | every character other than CR and LF keeps its number of occurrences |
| WordReplace.ReplaceWholeWord | services/jsonUtils.ts:52-54 | a replacement as long as the word keeps the text's length |
| WordReplace.NormalizeLiterals | services/jsonUtils.ts:51-54 | the three chained rewrites keep the text's length |
| WordReplace.ReplaceWholeWordSpec | services/jsonUtils.ts:52-54 | one `\bw\b` rewrite with a same-length word-character replacement keeps the length, puts the replacement over every whole-word match, and keeps every character that no match covers |
| WordReplace.ReplaceKeepsOtherWord | services/jsonUtils.ts:52-54 | rewriting one literal neither creates nor destroys whole-word matches of another, so each later rewrite sees the original text's matches |
| WordReplace.NormalizeNone | services/jsonUtils.ts:52 | every whole-word `None` of the input reads `null` after the three rewrites |
| WordReplace.NormalizeTrue | services/jsonUtils.ts:53 | every whole-word `True` of the input reads `true` after the three rewrites |
| WordReplace.NormalizeFalse | services/jsonUtils.ts:54 | every whole-word `False` of the input reads `false` after the three rewrites |
| WordReplace.NormalizeLiteralsSpec | services/jsonUtils.ts:51-54 | the chained rewrite keeps the length, turns each whole-word Python literal of the input into its JSON spelling, and keeps every other character |
| WordReplace.NormalizeSingleLiteral | services/jsonUtils.ts:51-54 | a text holding one Python literal between non-word characters, and no other capital `N`, `T` or `F`, has exactly that literal rewritten |
| WordReplace.NormalizeWithoutCapitals | services/jsonUtils.ts:51-54 | a text without `N`, `T` or `F` is unchanged by the literal rewrites |
| TrailingCommas.RemoveTrailingCommas | services/jsonUtils.ts:58 | the global replace equals the reference definition that keeps every character except the trailing commas, so it never lengthens the text |
| TrailingCommas.StripFromIsKeep | services/jsonUtils.ts:58 | the regex scan, which jumps past each closing bracket it matches, equals deleting exactly the commas followed by optional whitespace and a closing bracket |
| TrailingCommas.RemoveTrailingCommasSpec | services/jsonUtils.ts:58 | exactly the trailing commas go; every other character keeps its count; a text without trailing commas is unchanged |
| TrailingCommas.StripWithoutClosers | services/jsonUtils.ts:58 | a text without `]` or `}` has no trailing comma and comes back unchanged |
| SingleQuotes.EscapeDoubleQuotes | services/jsonUtils.ts:80 | the escaped content is no shorter and every `"` in it is preceded by a backslash |
| SingleQuotes.UnescapeEscape | services/jsonUtils.ts:80 | escaping the inner double quotes is undone by unescaping them, so no content is lost |
| SingleQuotes.ScanSource | services/jsonUtils.ts:78 | the scan into plain characters and quoted literals loses nothing: reading the pieces back gives the scanned text |
| SingleQuotes.ScanBodies | services/jsonUtils.ts:78 | the content of every matched literal matches `(?:[^'\\]|\\.)*` |
| SingleQuotes.ScanGreedy | services/jsonUtils.ts:78 | every piece of the scan sits where the global match puts it: a copied character exactly where no literal starts, a literal exactly where one starts, holding the body up to the closing quote (which `LiteralFromBody` ties to the pattern) |
| SingleQuotes.BodyAtQuote | services/jsonUtils.ts:78 | a run matching the body pattern (`IsBody`) that reaches a quote is exactly the run the match takes, escaped pairs included |
| SingleQuotes.LiteralFromBody | services/jsonUtils.ts:78 | a quote, a run matching the body pattern (`IsBody`) and a quote always form a match, with that run as its body |
| SingleQuotes.QuoteKeptOnlyWithoutLiteral | services/jsonUtils.ts:78-82 | a single quote comes through the conversion unchanged only where no literal starts: no later quote closes a run matching the body pattern (`IsBody`) after it |
| SingleQuotes.RenderPlain | services/jsonUtils.ts:78 | outside a literal, a character other than `'` is copied and the output goes on after it |
| SingleQuotes.RenderAtLiteral | services/jsonUtils.ts:78-82 | at a literal, the output is `"`, the content with every `"` escaped, `"`, then the conversion of the text after the closing quote |
| SingleQuotes.ConvertLiteral | services/jsonUtils.ts:78-82 | text without a single quote before a literal is copied, the literal becomes a double-quoted one with its content's `"` escaped, and the conversion resumes after its closing quote |
| SingleQuotes.ConvertOnlyLiteral | services/jsonUtils.ts:78-82 | a text whose only single quotes are one literal's: the literal is converted and everything around it is copied |
| SingleQuotes.ConvertPieces | services/jsonUtils.ts:78-82 | a text made of `a`, one literal with content `b` and `c` becomes `a`, `"`, `b` with its `"` escaped, `"`, `c` |
| SingleQuotes.ConvertWithoutQuotes | services/jsonUtils.ts:78-82 | a text without a single quote comes out of the conversion unchanged |
| LocalParse.SmartLocalParse | services/jsonUtils.ts:8-95 | the result succeeds exactly when it carries no error; a failure carries null data; "Input is empty" is reported exactly when the trimmed input is empty |
| LocalParse.DirectStage | services/jsonUtils.ts:16-32 | the first stage fails exactly when the direct parse fails; a non-string result is kept as it is; a string result is replaced by the parse of its contents when that parse succeeds, and kept as the string when it fails |
| LocalParse.SingleLineStage | services/jsonUtils.ts:41-44 | on text without CR or LF the second stage parses the very text the first stage parsed |
| LocalParse.HeuristicWithoutQuotes | services/jsonUtils.ts:49-83 | for trimmed text without a single quote, the heuristic text is the literal and trailing-comma rewrites alone: the single-quote step changes nothing, since neither rewrite brings in a `'` |
| LocalParse.EmptyInput | services/jsonUtils.ts:9-11 | blank input fails with "Input is empty" and null data, whatever the parser, and hands no text to the parser |
| LocalParse.DirectParseWins | services/jsonUtils.ts:16-32 | a successful direct parse decides the result: a non-string is returned; a string is replaced by the parse of its contents when that succeeds, and is returned as it is otherwise |
| LocalParse.FallbackOrder | services/jsonUtils.ts:37-94 | after a failed direct parse, the single-line text decides if it parses; otherwise the heuristic text decides; otherwise the result is "Could not parse locally. Try AI Fix." with null data |
| LocalParse.ResultSound | services/jsonUtils.ts:8-95 | success carries no error and a value the parser gave for one of the texts handed to it; failure carries null data and one of the two messages; "Input is empty" is reported exactly for blank input |
| LocalParse.OnlyConsultedTextsMatter | services/jsonUtils.ts:8-95 | the result depends on the parser only through the texts the chain hands it, so no stage after a successful one is consulted |
| LocalParse.HeuristicWithoutOpener | services/jsonUtils.ts:77-83 | the single-quote conversion is skipped when the rewritten text does not start with `{` or `[` |
| DiffKeys.IndexKey | services/jsonUtils.ts:128 | `i.toString()` is a non-empty run of decimal digits without a leading zero |
| DiffKeys.ParseIndexKey | services/jsonUtils.ts:128 | reading the decimal key back gives the index |
| DiffKeys.IndexKeyInjective | services/jsonUtils.ts:128 | distinct indexes get distinct keys |
| DiffKeys.Dedup | services/jsonUtils.ts:144 | the `Set` of a key list has no repeats and the same members as the list |
| DiffKeys.DedupAppend | services/jsonUtils.ts:144 | the `Set` of two lists' keys iterates the first list's keys first, then the second list's new keys in their order |
| StructuralDiff.UnionKeys | services/jsonUtils.ts:144 | the key union has no repeats and holds exactly the keys of either object |
| StructuralDiff.ArrayChild | services/jsonUtils.ts:127-137 | the child at an index is added exactly when only the new array reaches it, removed exactly when only the old one does; its value is the new element, or the old one when removed |
| StructuralDiff.ObjectChild | services/jsonUtils.ts:148-158 | the child under a key is added exactly when the old object lacks the key as its own, removed exactly when only the old object has it; its value is the new member's, or the old member's when removed |
| StructuralDiff.Diff | services/jsonUtils.ts:112-165 | the node's value is the new side; the top node is never added or removed; it has children exactly when both sides are arrays or both are objects, and is then updated exactly when some child is not unchanged; otherwise it is unchanged exactly when the sides are equal, and else an updated leaf that keeps the old value |
| StructuralDiff.GenerateDiff | services/jsonUtils.ts:112-165 | the loop-based construction returns exactly the diff tree |
| StructuralDiff.GenerateArrayDiff | services/jsonUtils.ts:121-140 | the index loop builds the array children in index order and raises the flag exactly when some child changed |
| StructuralDiff.GenerateObjectDiff | services/jsonUtils.ts:142-162 | the key loop builds the object children in key-union order and raises the flag exactly when some child changed |
| StructuralDiff.GenerateObjectChild | services/jsonUtils.ts:148-158 | the child for one key: added, removed, or the recursive diff |
| StructuralDiff.HasChangesAppend | services/jsonUtils.ts:136 | appending a child makes the list changed exactly when it was changed already or the new child is not unchanged |
| DiffProperties.ArrayDiffChildren | services/jsonUtils.ts:121-140 | two arrays get one child per index up to the longer length, keyed by the decimal index with no repeats; an index only the new array has is added with the new element, one only the old array has is removed with the old element, and a shared index holds the diff of the two elements |
| DiffProperties.ArrayChildCases | services/jsonUtils.ts:127-137 | the child at each index is added, removed or the recursive diff, by which array has the index |
| DiffProperties.ObjectChildCases | services/jsonUtils.ts:148-158 | the child under a key is added exactly when the old object lacks it, removed exactly when only the old object has it, and otherwise the diff of the two values |
| DiffProperties.ObjectDiffChildren | services/jsonUtils.ts:142-162 | two objects get one child per key of either side, each once, in `Set` order, and each child is the one its key's occurrence calls for |
| DiffProperties.ObjectDiffOldKeysFirst | services/jsonUtils.ts:144 | with distinct keys, the children list the old object's keys in their order, then the keys only the new object has |
| DiffProperties.DiffSelf | services/jsonUtils.ts:113-114 | a value diffed against itself is unchanged at every depth |
| DiffProperties.DiffUnchangedIffEquiv | services/jsonUtils.ts:112-165 | for parsed values (distinct keys), the diff is unchanged exactly when the two values are equal up to the order of object members |
| PrototypeKeys.ChildKindAsWritten | services/jsonUtils.ts:148-158 | the source's tag for a key, with `in` also seeing inherited methods: added exactly when the old object has neither the key nor an inherited member of that name; removed exactly when the old object has one of them and the new object neither; the recursive diff's tag when both have the key as their own |
| PrototypeKeys.InheritedOneSideUpdated | services/jsonUtils.ts:148-153 | for an inherited method name that is an own key of exactly one side, the source reports an update while the own-key child is added or removed, so the two always differ there |
| PrototypeKeys.AsWrittenAgreesOffPrototype | services/jsonUtils.ts:148-158 | for keys that are not inherited method names, the source's tag equals the own-key child's tag |
| PrototypeKeys.ConstructorKeyAdded | services/jsonUtils.ts:148-150 | `{}` against `{"constructor": 1}`: the corrected child is added, the source's tag is updated |
| PrototypeKeys.ToStringKeyRemoved | services/jsonUtils.ts:151-153 | `{"toString": 1}` against `{}`: the corrected child is removed, the source's tag is updated |
| Examples.StripExample | services/jsonUtils.ts:57-58 | `[1, 2,]` loses its trailing comma and keeps the other one |
| Examples.StripSpacedExample | services/jsonUtils.ts:57-58 | on `[1, 2, \n]` the comma goes and the whitespace before `]` stays |
| Examples.TrailingCommaExample | services/jsonUtils.ts:49-83 | the heuristic text of `[1, 2,]` is `[1, 2]` |
| Examples.ProseExample | services/jsonUtils.ts:76-77 | the heuristic text of `it's fine` is the text itself: the apostrophe survives because the text opens no object or array |
| Examples.ConvertKeyExample | services/jsonUtils.ts:78-82 | `{'a': 1}` is converted to `{"a": 1}` |
| Examples.ConvertOkExample | services/jsonUtils.ts:78-82 | `{'ok': true}` is converted to `{"ok": true}` |
| Examples.EscapedQuoteExample | services/jsonUtils.ts:78-82 | in `{'a\'b': 1}` the escaped quote stays inside the literal, which ends at the quote after `b`, and the text converts to `{"a\'b": 1}` |
| Examples.PythonDictExample | services/jsonUtils.ts:49-83 | the heuristic text of the Python dict `{'ok': True}` is the JSON `{"ok": true}` |
| Examples.RemovedElementExample | services/jsonUtils.ts:130-131 | `[1, 2, 3]` against `[1, 2]` is updated, and child "2" is removed with value 3 |
| Examples.AddedMemberExample | services/jsonUtils.ts:148-149 | `{"a": 1}` against `{"a": 1, "b": 2}` has child "a" unchanged and child "b" added |
| Examples.UpdatedMemberExample | services/jsonUtils.ts:155-157 | `{"a": 1}` against `{"a": 2}` has child "a" updated, with old value 1 and new value 2 |

## Findings

| source | as written | input that shows it | evidently intended | confidence | as-written member | corrected member |
|---|---|---|---|---|---|---|
| services/jsonUtils.ts:148-151 | `key in oldObj` and `key in newObj` also find the methods every object inherits from `Object.prototype` | old `{}`, new `{"constructor": 1}`: the key is reported updated, with the inherited function as old value; old `{"toString": 1}`, new `{}`: reported updated, not removed | a key absent from one side's own keys is added or removed | high (not executed) | PrototypeKeys.ChildKindAsWritten | StructuralDiff.ObjectChild |

The exhibits are `PrototypeKeys.ConstructorKeyAdded` and
`PrototypeKeys.ToStringKeyRemoved`. The rest of the model uses the own-key
reading `StructuralDiff.ObjectChild`. Its tags are proved in
`DiffProperties.ObjectChildCases`, and it agrees with the source for every
other key (`PrototypeKeys.AsWrittenAgreesOffPrototype`).

## Left out

- `formatJson` and `minifyJson` (services/jsonUtils.ts:97-103) are single calls to `JSON.stringify` with and without indentation. No JSON printer is modelled, so they are not part of this model.
- `JSON.parse` itself is not modelled: it is the parameter `parse`, and the lemmas hold for every parser. Exceptions become `None`.
- JSON numbers are modelled as mathematical reals, not IEEE doubles. Rounding, `-0` and very large literals are not captured.
- Text.Trim: uses the ASCII whitespace set (space, tab, LF, VT, FF, CR). JavaScript's `trim()` also strips Unicode spaces, the line terminators U+2028 and U+2029, and the byte-order mark.
- TrailingCommas.RemoveTrailingCommasSpec: `\s` is modelled with the same ASCII whitespace set, not JavaScript's full Unicode `\s`.
- SingleQuotes.ScanBodies: `.` in `\\.` excludes exactly LF, CR, U+2028 and U+2029, as in JavaScript without the `s` flag. Strings are sequences of Unicode scalar values. An astral character is one character here and two UTF-16 code units in JavaScript. The scans treat the two alike, because neither surrogate is a quote, a backslash, a word character or whitespace. A lone surrogate cannot be represented.
- Object member order is kept as written. JavaScript enumerates integer-like keys first in ascending order, both in `Object.keys` and in the `children` record; the model does not.
- The `__proto__` key is not modelled. Its inherited value is an object, and assigning `children["__proto__"]` changes the prototype instead of adding a child.
- StructuralDiff.Diff: `===` on two containers is modelled as never true. Two values that come from separate parses are never the same object, and that is how the diff is used.
- The remote repair service, the React user interface and clipboard or file I/O are outside this core and not part of this model.

=== FILE: diff_keys.dfy ===
/**
 * The two kinds of child key a diff node uses: an array index written in
 * decimal (`i.toString()`), and the union of two objects' keys as
 * `new Set([...Object.keys(old), ...Object.keys(new)])` iterates it.
 */
module DiffKeys {
  import opened JsonValue

  function DigitChar(d: nat): (c: char)
    requires d < 10
    ensures '0' <= c <= '9'
  {
    ['0', '1', '2', '3', '4', '5', '6', '7', '8', '9'][d]
  }

  function DigitValue(c: char): nat {
    if '0' <= c <= '9' then (c as int - '0' as int) as nat else 0
  }

  /** `i.toString()` for a non-negative integer: its decimal digits, without leading zeros. */
  function IndexKey(n: nat): (r: string)
    ensures |r| > 0
    ensures forall k | 0 <= k < |r| :: '0' <= r[k] <= '9'
    ensures |r| > 1 ==> r[0] != '0'
  {
    if n < 10 then [DigitChar(n)] else IndexKey(n / 10) + [DigitChar(n % 10)]
  }

  /** Reads a string of decimal digits back as a number. */
  function ParseIndex(s: string): nat
    decreases |s|
  {
    if s == [] then 0 else ParseIndex(s[..|s| - 1]) * 10 + DigitValue(s[|s| - 1])
  }

  /** Decimal writing round-trips, so distinct indexes get distinct keys. */
  lemma {:induction false} ParseIndexKey(n: nat)
    ensures ParseIndex(IndexKey(n)) == n
  {
    var r := IndexKey(n);
    if n < 10 {
      assert DigitValue(DigitChar(n)) == n;
      assert r[..|r| - 1] == [];
    } else {
      ParseIndexKey(n / 10);
      assert r[..|r| - 1] == IndexKey(n / 10);
      assert DigitValue(DigitChar(n % 10)) == n % 10;
    }
  }

  lemma IndexKeyInjective(a: nat, b: nat)
    requires IndexKey(a) == IndexKey(b)
    ensures a == b
  {
    ParseIndexKey(a);
    ParseIndexKey(b);
  }

  /** The elements of `s` in order of first occurrence, each once (what a `Set` built from `s` iterates). */
  function Dedup(s: seq<string>): (r: seq<string>)
    ensures Distinct(r)
    ensures forall x :: x in r <==> x in s
    decreases |s|
  {
    if s == [] then []
    else
      var d := Dedup(s[..|s| - 1]);
      if s[|s| - 1] in d then d else d + [s[|s| - 1]]
  }

  /** The elements of `s` that are not in `t`, in order. */
  function Without(s: seq<string>, t: seq<string>): (r: seq<string>)
    ensures forall x :: x in r <==> x in s && x !in t
    decreases |s|
  {
    if s == [] then []
    else if s[|s| - 1] in t then Without(s[..|s| - 1], t)
    else Without(s[..|s| - 1], t) + [s[|s| - 1]]
  }

  /** A sequence without repeats is its own de-duplication. */
  lemma {:induction false} DedupDistinct(s: seq<string>)
    requires Distinct(s)
    ensures Dedup(s) == s
    decreases |s|
  {
    if s != [] {
      var init := s[..|s| - 1];
      DedupDistinct(init);
      assert s[|s| - 1] !in init;
      assert s == init + [s[|s| - 1]];
    }
  }

  /**
   * The union of two key lists in `Set` order: the keys of `a` first, then
   * the keys of `b` that `a` lacks, in their order in `b`.
   */
  lemma {:induction false} DedupAppend(a: seq<string>, b: seq<string>)
    ensures Dedup(a + b) == Dedup(a) + Dedup(Without(b, a))
    decreases |b|, 1
  {
    if b == [] {
      assert a + b == a;
    } else {
      DedupAppendLast(a, b);
    }
  }

  /** The step of `DedupAppend` for the last element of `b`. */
  lemma {:induction false} DedupAppendLast(a: seq<string>, b: seq<string>)
    requires b != []
    ensures Dedup(a + b) == Dedup(a) + Dedup(Without(b, a))
    decreases |b|, 0
  {
    var init := b[..|b| - 1];
    var x := b[|b| - 1];
    assert (a + b)[..|a + b| - 1] == a + init;
    assert (a + b)[|a + b| - 1] == x;
    DedupAppend(a, init);
    var w := Without(init, a);
    if x in a {
      assert Without(b, a) == w;
    } else {
      assert Without(b, a) == w + [x];
      assert (w + [x])[..|w + [x]| - 1] == w;
      assert x in a + init <==> x in Dedup(w);
    }
  }
}

=== FILE: diff_properties.dfy ===
/** What the diff promises: the shape of its children, and when it reports no change. */
module DiffProperties {
  import opened Options
  import opened JsonValue
  import opened DiffKeys
  import opened StructuralDiff

  /**
   * Two arrays: one child per index up to the longer length, keyed "0", "1",
   * …; an index only the new array has is added, one only the old array has
   * is removed, and an index both have holds the diff of the two elements.
   */
  lemma ArrayDiffChildren(o: Json, n: Json)
    requires o.Arr? && n.Arr?
    ensures Diff(o, n).children.Some?
    ensures var cs := Diff(o, n).children.value;
      && |cs| == Max(|o.items|, |n.items|)
      && (forall i | 0 <= i < |cs| :: cs[i].0 == IndexKey(i))
      && Distinct(KeysOf(cs))
      && (forall i | 0 <= i < |cs| :: cs[i].1.kind == Added <==> i >= |o.items|)
      && (forall i | 0 <= i < |cs| :: cs[i].1.kind == Removed <==> |n.items| <= i < |o.items|)
      && (forall i | |o.items| <= i < |cs| :: cs[i].1.value == n.items[i])
      && (forall i | |n.items| <= i < |o.items| :: cs[i].1.value == o.items[i])
      && (forall i | 0 <= i < |o.items| && i < |n.items| :: cs[i].1 == Diff(o.items[i], n.items[i]))
  {
    var cs := Diff(o, n).children.value;
    assert cs == ArrayChildren(o, n);
    forall i | 0 <= i < |cs|
      ensures cs[i] == (IndexKey(i), ArrayChild(o, n, i))
    {
    }
    ArrayChildCases(o, n);
    forall i, j | 0 <= i < j < |cs|
      ensures KeysOf(cs)[i] != KeysOf(cs)[j]
    {
      if IndexKey(i) == IndexKey(j) {
        IndexKeyInjective(i, j);
      }
    }
  }

  /** The child at each index of two arrays, by which side has the index. */
  lemma ArrayChildCases(o: Json, n: Json)
    requires o.Arr? && n.Arr?
    ensures forall i | 0 <= i < Max(|o.items|, |n.items|) ::
      var c := ArrayChild(o, n, i);
      && (c.kind == Added <==> i >= |o.items|)
      && (c.kind == Removed <==> |n.items| <= i < |o.items|)
      && (|o.items| <= i ==> c.value == n.items[i])
      && (|n.items| <= i < |o.items| ==> c.value == o.items[i])
      && (i < |o.items| && i < |n.items| ==> c == Diff(o.items[i], n.items[i]))
  {
  }

  /** The child under key `k` of two objects, by where the key occurs. */
  lemma ObjectChildCases(o: Json, n: Json, k: string)
    requires o.Obj? && n.Obj?
    requires k in KeysOf(o.fields) || k in KeysOf(n.fields)
    ensures var c := ObjectChild(o, n, k);
      && (c.kind == Added <==> k !in KeysOf(o.fields))
      && (c.kind == Removed <==> k in KeysOf(o.fields) && k !in KeysOf(n.fields))
      && (k !in KeysOf(o.fields) ==> c.value == n.fields[Find(n.fields, k).value].1)
      && (k in KeysOf(o.fields) && k !in KeysOf(n.fields) ==> c.value == o.fields[Find(o.fields, k).value].1)
      && (k in KeysOf(o.fields) && k in KeysOf(n.fields) ==>
            c == Diff(o.fields[Find(o.fields, k).value].1, n.fields[Find(n.fields, k).value].1))
  {
  }

  /**
   * Two objects: one child per key of either side, each key once, the old
   * object's keys first and then the keys only the new object has, in their
   * order; a key only the new object has is added with its new value, a key
   * only the old object has is removed with its old value, and a shared key
   * holds the diff of its two values.
   */
  lemma ObjectDiffChildren(o: Json, n: Json)
    requires o.Obj? && n.Obj?
    ensures Diff(o, n).children.Some?
    ensures var cs := Diff(o, n).children.value;
      var ok, nk := KeysOf(o.fields), KeysOf(n.fields);
      && KeysOf(cs) == Dedup(ok) + Dedup(Without(nk, ok))
      && Distinct(KeysOf(cs))
      && (forall k :: k in KeysOf(cs) <==> k in ok || k in nk)
      && (forall t | 0 <= t < |cs| :: cs[t].1 == ObjectChild(o, n, cs[t].0))
  {
    var cs := Diff(o, n).children.value;
    var ok, nk := KeysOf(o.fields), KeysOf(n.fields);
    assert cs == ObjectChildren(o, n);
    assert KeysOf(cs) == UnionKeys(o, n);
    DedupAppend(ok, nk);
  }

  /** With distinct keys, the old keys come first in their own order. */
  lemma ObjectDiffOldKeysFirst(o: Json, n: Json)
    requires o.Obj? && n.Obj? && Distinct(KeysOf(o.fields))
    ensures KeysOf(Diff(o, n).children.value) ==
      KeysOf(o.fields) + Dedup(Without(KeysOf(n.fields), KeysOf(o.fields)))
  {
    ObjectDiffChildren(o, n);
    DedupDistinct(KeysOf(o.fields));
  }

  /** Diffing a value against itself reports no change, at every depth. */
  lemma {:induction false} DiffSelf(x: Json)
    ensures Diff(x, x).kind == Unchanged
    ensures Diff(x, x).value == x
    decreases x
  {
    match x
    case Arr(xs) =>
      var cs := ArrayChildren(x, x);
      forall i | 0 <= i < |cs|
        ensures cs[i].1.kind == Unchanged
      {
        assert cs[i].1 == ArrayChild(x, x, i) == Diff(xs[i], xs[i]);
        DiffSelf(xs[i]);
      }
      assert Diff(x, x) == Container(cs, x);
    case Obj(fs) =>
      var cs := ObjectChildren(x, x);
      forall t | 0 <= t < |cs|
        ensures cs[t].1.kind == Unchanged
      {
        var k := cs[t].0;
        assert k in UnionKeys(x, x);
        var a := Find(fs, k).value;
        assert cs[t].1 == ObjectChild(x, x, k) == Diff(fs[a].1, fs[a].1);
        DiffSelf(fs[a].1);
      }
      assert Diff(x, x) == Container(cs, x);
    case _ =>
  }

  /**
   * For values `JSON.parse` can return (objects with distinct keys), the diff
   * reports no change exactly when the two values are equal up to the order
   * of object members.
   */
  lemma {:induction false} DiffUnchangedIffEquiv(o: Json, n: Json)
    requires WellFormed(o) && WellFormed(n)
    ensures Diff(o, n).kind == Unchanged <==> Equiv(o, n)
    decreases o, 3
  {
    if o.Arr? && n.Arr? {
      ArraysUnchangedIffEquiv(o, n);
    } else if o.Obj? && n.Obj? {
      ObjectsUnchangedIffEquiv(o, n);
    }
  }

  lemma {:induction false} ArraysUnchangedIffEquiv(o: Json, n: Json)
    requires o.Arr? && n.Arr? && WellFormed(o) && WellFormed(n)
    ensures Diff(o, n).kind == Unchanged <==> Equiv(o, n)
    decreases o, 2
  {
    var os, ns := o.items, n.items;
    var cs := ArrayChildren(o, n);
    assert Diff(o, n) == Container(cs, n);
    forall i | 0 <= i < |cs|
      ensures cs[i].1 == ArrayChild(o, n, i)
    {
    }
    forall i | 0 <= i < |os| && i < |ns|
      ensures Diff(os[i], ns[i]).kind == Unchanged <==> Equiv(os[i], ns[i])
    {
      DiffUnchangedIffEquiv(os[i], ns[i]);
    }
    if Equiv(o, n) {
      assert !HasChanges(cs);
    }
    if !HasChanges(cs) {
      var m := Max(|os|, |ns|);
      if m > 0 {
        assert cs[m - 1].1.kind == Unchanged;
      }
      assert |os| == |ns|;
      forall i | 0 <= i < |os|
        ensures Equiv(os[i], ns[i])
      {
        assert cs[i].1.kind == Unchanged;
      }
      assert Equiv(o, n);
    }
  }

  lemma {:induction false} ObjectsUnchangedIffEquiv(o: Json, n: Json)
    requires o.Obj? && n.Obj? && WellFormed(o) && WellFormed(n)
    ensures Diff(o, n).kind == Unchanged <==> Equiv(o, n)
    decreases o, 2
  {
    var cs := ObjectChildren(o, n);
    assert Diff(o, n) == Container(cs, n);
    if Equiv(o, n) {
      EquivObjectsNoChanges(o, n);
    }
    if !HasChanges(cs) {
      NoChangesEquivObjects(o, n);
    }
  }

  lemma {:induction false} EquivObjectsNoChanges(o: Json, n: Json)
    requires o.Obj? && n.Obj? && WellFormed(o) && WellFormed(n) && Equiv(o, n)
    ensures !HasChanges(ObjectChildren(o, n))
    decreases o, 1
  {
    var keys := UnionKeys(o, n);
    var cs := ObjectChildren(o, n);
    forall t | 0 <= t < |cs|
      ensures cs[t].1.kind == Unchanged
    {
      assert cs[t].1 == ObjectChild(o, n, keys[t]);
      EquivKeyUnchanged(o, n, keys[t]);
    }
  }

  lemma {:induction false} EquivKeyUnchanged(o: Json, n: Json, k: string)
    requires o.Obj? && n.Obj? && WellFormed(o) && WellFormed(n) && Equiv(o, n)
    requires k in KeysOf(o.fields) || k in KeysOf(n.fields)
    ensures ObjectChild(o, n, k).kind == Unchanged
    decreases o, 0
  {
    var of, nf := o.fields, n.fields;
    var ok, nk := KeysOf(of), KeysOf(nf);
    assert k in ok && k in nk;
    var a, b := Find(of, k).value, Find(nf, k).value;
    assert Equiv(of[a].1, nf[b].1);
    DiffUnchangedIffEquiv(of[a].1, nf[b].1);
  }

  lemma {:induction false} NoChangesEquivObjects(o: Json, n: Json)
    requires o.Obj? && n.Obj? && WellFormed(o) && WellFormed(n)
    requires !HasChanges(ObjectChildren(o, n))
    ensures Equiv(o, n)
    decreases o, 1
  {
    var of, nf := o.fields, n.fields;
    var ok, nk := KeysOf(of), KeysOf(nf);
    var keys := UnionKeys(o, n);
    var cs := ObjectChildren(o, n);
    forall k | k in ok || k in nk
      ensures k in ok && k in nk
    {
      var t :| 0 <= t < |keys| && keys[t] == k;
      assert cs[t].1 == ObjectChild(o, n, k);
      assert cs[t].1.kind == Unchanged;
      ObjectChildCases(o, n, k);
    }
    forall a, b | 0 <= a < |of| && 0 <= b < |nf| && of[a].0 == nf[b].0
      ensures Equiv(of[a].1, nf[b].1)
    {
      var k := of[a].0;
      assert k in ok;
      var t :| 0 <= t < |keys| && keys[t] == k;
      assert cs[t].1 == ObjectChild(o, n, k);
      assert cs[t].1.kind == Unchanged;
      FindDistinct(of, a);
      FindDistinct(nf, b);
      ObjectChildCases(o, n, k);
      DiffUnchangedIffEquiv(of[a].1, nf[b].1);
    }
  }
}

=== FILE: examples.dfy ===
/** The documented behaviour of the heuristic rewrite and of the diff on concrete inputs. */
module Examples {
  import opened Options
  import opened JsonValue
  import opened Text
  import opened WordReplace
  import opened TrailingCommas
  import opened SingleQuotes
  import opened LocalParse
  import opened StructuralDiff

  /** The regex scan on `[1, 2,]` drops the comma before `]` and keeps the one before `2`. */
  lemma StripExample()
    ensures RemoveTrailingCommas("[1, 2,]") == "[1, 2]"
  {
    var s := "[1, 2,]";
    assert ClosingBracketFrom(s, 6) == Some(6);
    assert SkipSpaces(s, 3) == 4;
    assert ClosingBracketFrom(s, 3) == None;
    assert StripFrom(s, 7) == [];
    assert StripFrom(s, 5) == "]";
    assert StripFrom(s, 4) == "2]";
    assert StripFrom(s, 3) == " 2]";
    assert StripFrom(s, 2) == ", 2]";
    assert StripFrom(s, 1) == "1, 2]";
  }

  /** On `[1, 2, \n]` the comma goes and the whitespace before the bracket stays, as `$1` keeps it. */
  lemma StripSpacedExample()
    ensures RemoveTrailingCommas("[1, 2, \n]") == "[1, 2 \n]"
  {
    StripSpacedText("[1, 2, \n]");
  }

  /** The same scan, for a text that is only known to equal that literal. */
  lemma StripSpacedText(s: string)
    requires s == "[1, 2, \n]"
    ensures RemoveTrailingCommas(s) == "[1, 2 \n]"
  {
    assert IsSpace(s[6]) && IsSpace(s[7]) && !IsSpace(s[8]);
    assert SkipSpaces(s, 6) == 8;
    assert ClosingBracketFrom(s, 6) == Some(8);
    assert s[6..9] == " \n]";
    assert StripFrom(s, 5) == " \n]" + StripFrom(s, 9);
    assert StripFrom(s, 5) == " \n]";
    assert !IsSpace(s[4]);
    assert ClosingBracketFrom(s, 3) == None;
    assert StripFrom(s, 4) == "2 \n]";
    assert StripFrom(s, 3) == " 2 \n]";
    assert StripFrom(s, 2) == ", 2 \n]";
    assert StripFrom(s, 1) == "1, 2 \n]";
  }

  /** `[1, 2,]` holds no Python literal. */
  lemma NormalizeExample()
    ensures NormalizeLiterals("[1, 2,]") == "[1, 2,]"
  {
    var s := "[1, 2,]";
    forall k | 0 <= k < |s|
      ensures s[k] != 'N' && s[k] != 'T' && s[k] != 'F'
    {
    }
    NormalizeWithoutCapitals(s);
  }

  /** `[1, 2]` holds no single quote. */
  lemma ConvertExample()
    ensures ConvertSingleQuotes("[1, 2]") == "[1, 2]"
  {
    var s := "[1, 2]";
    forall k | 0 <= k < |s|
      ensures s[k] != '\''
    {
    }
    ConvertWithoutQuotes(s);
  }

  /** `{'a': 1}`: the single-quoted key becomes a double-quoted one, and the rest is copied. */
  lemma ConvertKeyExample()
    ensures ConvertSingleQuotes("{'a': 1}") == "{\"a\": 1}"
  {
    ConvertKeyText("{'a': 1}");
  }

  /** The same conversion, for a text that is only known to equal that literal. */
  lemma ConvertKeyText(s: string)
    requires s == "{'a': 1}"
    ensures ConvertSingleQuotes(s) == "{\"a\": 1}"
  {
    BodyEndSimple(s, 2, 3);
    assert s[0..1] == "{" && s[2..3] == "a" && s[4..] == ": 1}";
    ConvertPieces(s, 1, 3, "{", "a", ": 1}");
    assert EscapeDoubleQuotes("a") == "a";
  }

  /** `{'a\'b': 1}`: the escaped quote stays inside the literal, which ends at the quote after `b`. */
  lemma EscapedQuoteExample()
    ensures LiteralAt("{'a\\'b': 1}", 1) && BodyEnd("{'a\\'b': 1}", 2) == 6
    ensures ConvertSingleQuotes("{'a\\'b': 1}") == "{\"a\\'b\": 1}"
  {
    EscapedQuoteText("{'a\\'b': 1}");
  }

  /** The same conversion, for a text that is only known to equal that literal. */
  lemma EscapedQuoteText(s: string)
    requires s == "{'a\\'b': 1}"
    ensures LiteralAt(s, 1) && BodyEnd(s, 2) == 6
    ensures ConvertSingleQuotes(s) == "{\"a\\'b\": 1}"
  {
    var b := s[2..6];
    assert b == "a\\'b";
    EscapedBody(b);
    LiteralFromBody(s, 1, 6);
    assert s[0..1] == "{" && s[7..] == ": 1}";
    ConvertPieces(s, 1, 6, "{", b, ": 1}");
  }

  /** The content `a\'b` matches the body pattern, and has no `"` to escape. */
  lemma EscapedBody(b: string)
    requires b == "a\\'b"
    ensures IsBody(b) && EscapeDoubleQuotes(b) == b
  {
    assert b[1..][2..] == "b";
    assert IsBody(b[1..][2..][1..]);
    assert IsBody(b[1..][2..]);
    assert IsBody(b[1..]);
    assert EscapeDoubleQuotes(b[3..]) == "b";
    assert EscapeDoubleQuotes(b[2..]) == "'b";
    assert EscapeDoubleQuotes(b[1..]) == "\\'b";
  }

  /** `{'ok': True}`: the Python literal is rewritten, and the single-quoted key becomes a JSON string. */
  lemma PythonDictExample()
    ensures HeuristicText("{'ok': True}") == "{\"ok\": true}"
  {
    var a, c := "{'ok': ", "}";
    assert NoCapitals(a) && NoCapitals(c);
    NormalizeSingleLiteral(a, "True", "true", c);
    assert a + "True" + c == "{'ok': True}";
    var h := a + "true" + c;
    assert h == "{'ok': true}";
    forall k | 0 <= k < |h|
      ensures !IsTrailingComma(h, k)
    {
    }
    RemoveTrailingCommasSpec(h);
    assert StartsWithOpener(h);
    ConvertOkExample();
  }

  lemma ConvertOkExample()
    ensures ConvertSingleQuotes("{'ok': true}") == "{\"ok\": true}"
  {
    ConvertOkText("{'ok': true}");
  }

  /** The same conversion, for a text that is only known to equal that literal. */
  lemma ConvertOkText(s: string)
    requires s == "{'ok': true}"
    ensures ConvertSingleQuotes(s) == "{\"ok\": true}"
  {
    BodyEndSimple(s, 2, 4);
    assert s[0..1] == "{" && s[2..4] == "ok" && s[5..] == ": true}";
    ConvertPieces(s, 1, 4, "{", "ok", ": true}");
    assert EscapeDoubleQuotes("ok") == "ok";
  }

  /** `[1, 2,]`: the trailing comma goes, and nothing else changes. */
  lemma TrailingCommaExample()
    ensures HeuristicText("[1, 2,]") == "[1, 2]"
  {
    NormalizeExample();
    StripExample();
    ConvertExample();
    assert StartsWithOpener("[1, 2]");
  }

  /** A line of prose keeps its apostrophe: it does not open an object or array, so the heuristic text is the text itself. */
  lemma ProseExample()
    ensures HeuristicText("it's fine") == "it's fine"
  {
    var s := "it's fine";
    forall k | 0 <= k < |s|
      ensures s[k] != 'N' && s[k] != 'T' && s[k] != 'F' && s[k] != ']' && s[k] != '}'
    {
    }
    NormalizeWithoutCapitals(s);
    StripWithoutClosers(s);
  }

  /** `[1, 2, 3]` against `[1, 2]`: the third element is reported removed under key "2". */
  lemma RemovedElementExample()
    ensures var d := Diff(Arr([Num(1.0), Num(2.0), Num(3.0)]), Arr([Num(1.0), Num(2.0)]));
      d.kind == Updated && d.children.Some? && |d.children.value| == 3 &&
      d.children.value[2] == ("2", Leaf(Removed, Num(3.0)))
  {
    var o, n := Arr([Num(1.0), Num(2.0), Num(3.0)]), Arr([Num(1.0), Num(2.0)]);
    var cs := ArrayChildren(o, n);
    assert Diff(o, n) == Container(cs, n);
    assert cs[2] == (DiffKeys.IndexKey(2), ArrayChild(o, n, 2));
    assert DiffKeys.IndexKey(2) == "2";
    assert cs[2].1.kind != Unchanged;
  }

  /** `{a: 1}` against `{a: 1, b: 2}`: `a` unchanged, `b` added, the object updated. */
  lemma AddedMemberExample()
    ensures var d := Diff(Obj([("a", Num(1.0))]), Obj([("a", Num(1.0)), ("b", Num(2.0))]));
      d.kind == Updated &&
      d.children == Some([("a", Leaf(Unchanged, Num(1.0))), ("b", Leaf(Added, Num(2.0)))])
  {
    var o, n := Obj([("a", Num(1.0))]), Obj([("a", Num(1.0)), ("b", Num(2.0))]);
    UnionKeysExample(o, n);
    var cs := ObjectChildren(o, n);
    assert |cs| == 2;
    assert Diff(o, n) == Container(cs, n);
    assert Find(o.fields, "a") == Some(0);
    assert Find(n.fields, "a") == Some(0);
    assert Find(o.fields, "b") == None;
    assert Find(n.fields, "b") == Some(1);
    assert cs[0] == ("a", Leaf(Unchanged, Num(1.0)));
    assert cs[1] == ("b", Leaf(Added, Num(2.0)));
    assert cs == [cs[0], cs[1]];
    assert cs[1].1.kind != Unchanged;
  }

  lemma UnionKeysExample(o: Json, n: Json)
    requires o == Obj([("a", Num(1.0))]) && n == Obj([("a", Num(1.0)), ("b", Num(2.0))])
    ensures UnionKeys(o, n) == ["a", "b"]
  {
    var all := KeysOf(o.fields) + KeysOf(n.fields);
    assert KeysOf(o.fields) == ["a"];
    assert KeysOf(n.fields) == ["a", "b"];
    assert all == ["a", "a", "b"];
    assert all[..2] == ["a", "a"];
    assert all[..2][..1] == ["a"];
    assert ["a"][..0] == [];
    assert DiffKeys.Dedup(["a"]) == ["a"];
    assert DiffKeys.Dedup(["a", "a"]) == ["a"];
  }

  /** `{a: 1}` against `{a: 2}`: `a` becomes an updated leaf that keeps the old value. */
  lemma UpdatedMemberExample()
    ensures var d := Diff(Obj([("a", Num(1.0))]), Obj([("a", Num(2.0))]));
      d.kind == Updated && d.children == Some([("a", DiffNode(Updated, Num(2.0), Some(Num(1.0)), None))])
  {
    var o, n := Obj([("a", Num(1.0))]), Obj([("a", Num(2.0))]);
    SharedKeyUnion(Num(1.0), Num(2.0));
    var cs := ObjectChildren(o, n);
    assert |cs| == 1;
    assert Diff(o, n) == Container(cs, n);
    assert Find(o.fields, "a") == Some(0) && Find(n.fields, "a") == Some(0);
    assert Diff(Num(1.0), Num(2.0)) == Changed(Num(1.0), Num(2.0));
    assert cs[0] == ("a", DiffNode(Updated, Num(2.0), Some(Num(1.0)), None));
    assert cs == [cs[0]];
  }

  /** Two objects with the one key `a` have the key union `["a"]`. */
  lemma SharedKeyUnion(x: Json, y: Json)
    ensures UnionKeys(Obj([("a", x)]), Obj([("a", y)])) == ["a"]
  {
    var o, n := Obj([("a", x)]), Obj([("a", y)]);
    assert KeysOf(o.fields) == ["a"] && KeysOf(n.fields) == ["a"];
    assert ["a"] + ["a"] == ["a", "a"];
    assert ["a", "a"][..1] == ["a"];
    assert ["a"][..0] == [];
  }
}

=== FILE: json_value.dfy ===
/**
 * JSON values as `JSON.parse` produces them: a closed sum over null, booleans,
 * numbers, strings, arrays and objects. An object keeps its members in
 * insertion order; `WellFormed` says that its keys are distinct, which holds of
 * every value `JSON.parse` returns. (For a text that repeats a key, `JSON.parse`
 * keeps one member holding the LAST value, whereas `Find` answers the first of
 * several equal keys; the two agree on every well-formed value, and only
 * well-formed values are diffed.)
 */
module JsonValue {
  import opened Options

  /** Numbers are compared only for equality, so a real number stands for a double. */
  datatype Json =
    | Null
    | Bool(b: bool)
    | Num(n: real)
    | Str(s: string)
    | Arr(items: seq<Json>)
    | Obj(fields: seq<(string, Json)>)

  /** The answers `typeof` gives for JSON values (`null` and arrays are "object"). */
  datatype JsType = TObject | TBoolean | TNumber | TString

  function TypeOf(j: Json): (t: JsType)
    ensures t == TObject <==> j.Null? || j.Arr? || j.Obj?
  {
    match j
    case Bool(_) => TBoolean
    case Num(_) => TNumber
    case Str(_) => TString
    case _ => TObject
  }

  predicate IsPrimitive(j: Json) {
    !j.Arr? && !j.Obj?
  }

  /**
   * JavaScript `===` on two parsed values: primitives compare by type and value;
   * two containers are never the same reference, because the two sides of a diff
   * always come from two separate parses.
   */
  predicate StrictEquals(a: Json, b: Json) {
    IsPrimitive(a) && a == b
  }

  /** No key occurs twice. */
  predicate Distinct(ks: seq<string>) {
    forall i, j | 0 <= i < j < |ks| :: ks[i] != ks[j]
  }

  /** `Object.keys`: the names of a member list (an object's, or a diff node's children) in insertion order. */
  function KeysOf<V>(fields: seq<(string, V)>): (ks: seq<string>)
    ensures |ks| == |fields|
    ensures forall i | 0 <= i < |fields| :: ks[i] == fields[i].0
  {
    if fields == [] then [] else [fields[0].0] + KeysOf(fields[1..])
  }

  /**
   * The position of the first member named `k`, if there is one (own-key
   * lookup). On a repeated key this is not `JSON.parse`'s last-wins choice;
   * under `Distinct(KeysOf(fields))` there is only one member to find (`FindDistinct`).
   */
  function Find(fields: seq<(string, Json)>, k: string): (r: Option<nat>)
    ensures r.None? <==> k !in KeysOf(fields)
    ensures r.Some? ==> r.value < |fields| && fields[r.value].0 == k
    ensures r.Some? ==> forall i | 0 <= i < r.value :: fields[i].0 != k
  {
    if fields == [] then None
    else if fields[0].0 == k then Some(0)
    else match Find(fields[1..], k)
      case None => None
      case Some(i) => Some(i + 1)
  }

  /** Every object inside `j`, at any depth, has distinct keys. */
  predicate WellFormed(j: Json)
    decreases j
  {
    match j
    case Arr(xs) => forall i | 0 <= i < |xs| :: WellFormed(xs[i])
    case Obj(fs) => Distinct(KeysOf(fs)) && forall i | 0 <= i < |fs| :: WellFormed(fs[i].1)
    case _ => true
  }

  /**
   * Structural equality that ignores the order of object members: arrays agree
   * position by position, objects have the same key set and agree key by key,
   * primitives are equal.
   */
  ghost predicate Equiv(a: Json, b: Json)
    decreases a
  {
    match a
    case Arr(xs) =>
      b.Arr? && |xs| == |b.items| &&
      forall i | 0 <= i < |xs| :: Equiv(xs[i], b.items[i])
    case Obj(fs) =>
      b.Obj? && (forall k :: k in KeysOf(fs) <==> k in KeysOf(b.fields)) &&
      forall i, j | 0 <= i < |fs| && 0 <= j < |b.fields| && fs[i].0 == b.fields[j].0 ::
        Equiv(fs[i].1, b.fields[j].1)
    case _ => a == b
  }

  /** With distinct keys, the member at position `i` is the one `Find` returns. */
  lemma {:induction false} FindDistinct(fields: seq<(string, Json)>, i: nat)
    requires Distinct(KeysOf(fields)) && i < |fields|
    ensures Find(fields, fields[i].0) == Some(i)
  {
    var r := Find(fields, fields[i].0);
    assert fields[i].0 in KeysOf(fields);
  }
}

=== FILE: local_parse.dfy ===
/**
 * `smartLocalParse`: an ordered, short-circuiting chain of parse attempts on
 * progressively rewritten text. `JSON.parse` is a parameter, any total map
 * from text to an optional value, so every property below holds for every
 * parser.
 */
module LocalParse {
  import opened Options
  import opened JsonValue
  import opened Text
  import opened WordReplace
  import opened TrailingCommas
  import opened SingleQuotes

  /** `{ success, data, error }`; a failed result carries `data: null`. */
  datatype ParseResult = ParseResult(success: bool, data: Json, error: Option<string>)

  const EmptyInputError: string := "Input is empty"
  const LocalFailureError: string := "Could not parse locally. Try AI Fix."

  function Succeeded(v: Json): ParseResult {
    ParseResult(true, v, None)
  }

  function Failed(message: string): ParseResult {
    ParseResult(false, Null, Some(message))
  }

  /** Stage 1: parse the trimmed text; a string result is parsed once more and replaced by the inner value when that succeeds. */
  function DirectStage(cleaned: string, parse: string -> Option<Json>): (r: Option<Json>)
    ensures r.None? <==> parse(cleaned).None?
    ensures r.Some? && !parse(cleaned).value.Str? ==> r == parse(cleaned)
    ensures parse(cleaned).Some? && parse(cleaned).value.Str? && parse(parse(cleaned).value.s).Some? ==>
      r == parse(parse(cleaned).value.s)
    ensures parse(cleaned).Some? && parse(cleaned).value.Str? && parse(parse(cleaned).value.s).None? ==>
      r == parse(cleaned)
  {
    match parse(cleaned)
    case None => None
    case Some(Str(s)) =>
      (match parse(s)
       case Some(inner) => Some(inner)
       case None => Some(Str(s)))
    case Some(v) => Some(v)
  }

  /** Stage 2: parse with every carriage return and line feed deleted; no unwrapping here. */
  function SingleLineStage(cleaned: string, parse: string -> Option<Json>): (r: Option<Json>)
    ensures (forall k | 0 <= k < |cleaned| :: !IsLineBreak(cleaned[k])) ==> r == parse(cleaned)
  {
    parse(RemoveLineBreaks(cleaned))
  }

  predicate StartsWithOpener(h: string) {
    |h| > 0 && (h[0] == '{' || h[0] == '[')
  }

  /** The heuristic text: Python literals, then trailing commas, then single quotes when the text opens an object or array. */
  function HeuristicText(cleaned: string): string {
    var h := RemoveTrailingCommas(NormalizeLiterals(cleaned));
    if StartsWithOpener(h) then ConvertSingleQuotes(h) else h
  }

  /** Stage 3: parse the heuristic text. */
  function HeuristicStage(cleaned: string, parse: string -> Option<Json>): Option<Json> {
    parse(HeuristicText(cleaned))
  }

  /** The whole chain: blank input is refused, then the three stages are tried in order. */
  function SmartLocalParse(input: string, parse: string -> Option<Json>): (r: ParseResult)
    ensures r.success <==> r.error.None?
    ensures !r.success ==> r.data == Null
    ensures r.error == Some(EmptyInputError) <==> Trim(input) == []
  {
    var cleaned := Trim(input);
    if cleaned == [] then Failed(EmptyInputError)
    else match DirectStage(cleaned, parse)
      case Some(v) => Succeeded(v)
      case None =>
        match SingleLineStage(cleaned, parse)
        case Some(v) => Succeeded(v)
        case None =>
          match HeuristicStage(cleaned, parse)
          case Some(v) => Succeeded(v)
          case None => Failed(LocalFailureError)
  }

  /**
   * The texts handed to the parser, in order, for a non-blank input: the
   * trimmed text (and, if that gave a string, the string's contents); only
   * when that failed, the text without line breaks; only when that failed too,
   * the heuristic text.
   */
  function Consulted(input: string, parse: string -> Option<Json>): seq<string> {
    var cleaned := Trim(input);
    if cleaned == [] then []
    else match parse(cleaned)
      case Some(Str(s)) => [cleaned, s]
      case Some(_) => [cleaned]
      case None =>
        if parse(RemoveLineBreaks(cleaned)).Some? then [cleaned, RemoveLineBreaks(cleaned)]
        else [cleaned, RemoveLineBreaks(cleaned), HeuristicText(cleaned)]
  }

  /**
   * Blank input (empty or all whitespace) fails with "Input is empty" and
   * `data` null, whatever the parser would say: no text is parsed.
   */
  lemma EmptyInput(input: string, parse: string -> Option<Json>, other: string -> Option<Json>)
    requires forall k | 0 <= k < |input| :: IsSpace(input[k])
    ensures SmartLocalParse(input, parse) == Failed(EmptyInputError)
    ensures SmartLocalParse(input, parse) == SmartLocalParse(input, other)
    ensures Consulted(input, parse) == []
  {
  }

  /**
   * The result depends on the parser only through the texts it is handed:
   * two parsers that agree on those give the same result, so no stage after a
   * successful one is attempted.
   */
  lemma OnlyConsultedTextsMatter(input: string, p: string -> Option<Json>, q: string -> Option<Json>)
    requires forall t | t in Consulted(input, p) :: p(t) == q(t)
    ensures SmartLocalParse(input, p) == SmartLocalParse(input, q)
    ensures Consulted(input, p) == Consulted(input, q)
  {
    var cleaned := Trim(input);
    if cleaned != [] {
      assert p(cleaned) == q(cleaned);
      if p(cleaned).None? {
        assert p(RemoveLineBreaks(cleaned)) == q(RemoveLineBreaks(cleaned));
      }
    }
  }

  /**
   * The direct parse of the trimmed text wins whenever it succeeds: a
   * non-string value is returned as it is; a string whose contents parse is
   * replaced by the inner value (even a primitive); any other string is
   * returned unchanged.
   */
  lemma DirectParseWins(input: string, parse: string -> Option<Json>, v: Json)
    requires Trim(input) != [] && parse(Trim(input)) == Some(v)
    ensures !v.Str? ==> SmartLocalParse(input, parse) == Succeeded(v)
    ensures v.Str? && parse(v.s).Some? ==> SmartLocalParse(input, parse) == Succeeded(parse(v.s).value)
    ensures v.Str? && parse(v.s).None? ==> SmartLocalParse(input, parse) == Succeeded(v)
  {
  }

  /**
   * The stages in order: when the direct parse fails, the text without line
   * breaks decides if it parses; when that fails too, the heuristic text
   * decides; when all three fail the result is the local-failure message
   * with `data` null.
   */
  lemma FallbackOrder(input: string, parse: string -> Option<Json>)
    requires Trim(input) != [] && parse(Trim(input)).None?
    ensures var single := RemoveLineBreaks(Trim(input));
      var heuristic := HeuristicText(Trim(input));
      && (parse(single).Some? ==> SmartLocalParse(input, parse) == Succeeded(parse(single).value))
      && (parse(single).None? && parse(heuristic).Some? ==>
            SmartLocalParse(input, parse) == Succeeded(parse(heuristic).value))
      && (parse(single).None? && parse(heuristic).None? ==>
            SmartLocalParse(input, parse) == Failed(LocalFailureError))
  {
  }

  /**
   * Success carries a value the parser returned for one of the texts it was
   * handed, and no error; failure carries `data` null and one of the two
   * messages, "Input is empty" exactly for blank input.
   */
  lemma ResultSound(input: string, parse: string -> Option<Json>)
    ensures var r := SmartLocalParse(input, parse);
      && (r.success ==>
            r.error == None && exists t | t in Consulted(input, parse) :: parse(t) == Some(r.data))
      && (!r.success ==>
            r.data == Null && (r.error == Some(EmptyInputError) || r.error == Some(LocalFailureError)))
      && (r.error == Some(EmptyInputError) <==> forall k | 0 <= k < |input| :: IsSpace(input[k]))
  {
    var r := SmartLocalParse(input, parse);
    var cleaned := Trim(input);
    var cs := Consulted(input, parse);
    if r.success {
      match parse(cleaned)
      case Some(Str(s)) =>
        if parse(s).Some? {
          assert parse(cs[1]) == Some(r.data);
        } else {
          assert parse(cs[0]) == Some(r.data);
        }
      case Some(_) =>
        assert parse(cs[0]) == Some(r.data);
      case None =>
        if parse(RemoveLineBreaks(cleaned)).Some? {
          assert parse(cs[1]) == Some(r.data);
        } else {
          assert parse(cs[2]) == Some(r.data);
        }
    }
  }

  /** The single-quote step is skipped for text that does not open an object or array. */
  lemma HeuristicWithoutOpener(cleaned: string)
    requires !StartsWithOpener(RemoveTrailingCommas(NormalizeLiterals(cleaned)))
    ensures HeuristicText(cleaned) == RemoveTrailingCommas(NormalizeLiterals(cleaned))
  {
  }

  /**
   * Without a single quote in the trimmed text, the single-quote conversion
   * has nothing to do: the literal rewrites bring in only letters, and
   * dropping trailing commas brings in nothing.
   */
  lemma HeuristicWithoutQuotes(cleaned: string)
    requires forall k | 0 <= k < |cleaned| :: cleaned[k] != '\''
    ensures HeuristicText(cleaned) == RemoveTrailingCommas(NormalizeLiterals(cleaned))
  {
    var nl := NormalizeLiterals(cleaned);
    var h := RemoveTrailingCommas(nl);
    forall j | 0 <= j < |nl|
      ensures nl[j] != '\''
    {
      NormalizedNoQuote(cleaned, j);
    }
    assert multiset(nl)['\''] == 0;
    RemoveTrailingCommasSpec(nl);
    forall k | 0 <= k < |h|
      ensures h[k] != '\''
    {
      assert h[k] in multiset(h);
    }
    ConvertWithoutQuotes(h);
  }

  /** The literal rewrites put a single quote nowhere the text had none. */
  lemma NormalizedNoQuote(s: string, j: nat)
    requires j < |s| && forall k | 0 <= k < |s| :: s[k] != '\''
    ensures j < |NormalizeLiterals(s)| && NormalizeLiterals(s)[j] != '\''
  {
    var r := NormalizeLiterals(s);
    if !Untouched(s, "None", j) {
      var p: nat :| p <= j < p + 4 && WholeWordAt(s, "None", p);
      NormalizeNone(s, p);
      CoveredByLiteral(r, p, j, "null");
    } else if !Untouched(s, "True", j) {
      var p: nat :| p <= j < p + 4 && WholeWordAt(s, "True", p);
      NormalizeTrue(s, p);
      CoveredByLiteral(r, p, j, "true");
    } else if !Untouched(s, "False", j) {
      var p: nat :| p <= j < p + 5 && WholeWordAt(s, "False", p);
      NormalizeFalse(s, p);
      CoveredByLiteral(r, p, j, "false");
    } else {
      NormalizeKeeps(s, j);
    }
  }

  /** A position inside a replacement holds one of the replacement's characters. */
  lemma CoveredByLiteral(r: string, p: nat, j: nat, rep: string)
    requires p <= j < p + |rep| <= |r| && r[p..p + |rep|] == rep
    requires forall k | 0 <= k < |rep| :: rep[k] != '\''
    ensures r[j] != '\''
  {
    assert r[j] == rep[j - p];
  }
}

=== FILE: options.dfy ===
/** The optional value used wherever the source gets `undefined` or catches a failure. */
module Options {
  datatype Option<+T> = None | Some(value: T)
}

=== FILE: prototype_keys.dfy ===
/**
 * The membership test `key in obj` of the object branch of `generateDiff`,
 * as written: JavaScript's `in` also sees the names every plain object
 * inherits from `Object.prototype`. For such a name, present as an own key
 * on one side only, the test answers "present" on the other side too, and
 * the child is then reported as updated (the inherited member is a function,
 * whose `typeof` differs from any JSON value's) instead of added or removed.
 * `StructuralDiff.ObjectChild` is the corrected, own-key reading the rest of
 * the model uses.
 */
module PrototypeKeys {
  import opened Options
  import opened JsonValue
  import opened StructuralDiff

  /**
   * The methods a plain object inherits from `Object.prototype`. The
   * accessor `__proto__`, whose inherited value is an object rather than a
   * function, is not among them and not modelled.
   */
  const InheritedNames: set<string> := {
    "constructor", "hasOwnProperty", "isPrototypeOf", "propertyIsEnumerable",
    "toLocaleString", "toString", "valueOf",
    "__defineGetter__", "__defineSetter__", "__lookupGetter__", "__lookupSetter__"
  }

  /** `key in obj` for a plain object parsed from JSON: an own key or an inherited method name. */
  predicate InAsWritten(fields: seq<(string, Json)>, k: string) {
    k in KeysOf(fields) || k in InheritedNames
  }

  /**
   * The tag the source gives the child under key `k` of two objects. A key
   * present only through inheritance on one side reaches the recursive call
   * with a function on that side. The inherited function is not a `Json`
   * value and is not modelled as one: the final `Updated` stands for the
   * recursive call's answer, where the `typeof` test finds "function" on one
   * side and a JSON type on the other, and reports an update.
   */
  function ChildKindAsWritten(o: Json, n: Json, k: string): (kind: Kind)
    requires o.Obj? && n.Obj?
    requires k in KeysOf(o.fields) || k in KeysOf(n.fields)
    requires k != "__proto__"
    ensures kind == Added <==> !InAsWritten(o.fields, k)
    ensures kind == Removed <==> InAsWritten(o.fields, k) && !InAsWritten(n.fields, k)
    ensures k in KeysOf(o.fields) && k in KeysOf(n.fields) ==>
      kind == Diff(o.fields[Find(o.fields, k).value].1, n.fields[Find(n.fields, k).value].1).kind
  {
    if !InAsWritten(o.fields, k) then Added
    else if !InAsWritten(n.fields, k) then Removed
    else if k in KeysOf(o.fields) && k in KeysOf(n.fields) then
      Diff(o.fields[Find(o.fields, k).value].1, n.fields[Find(n.fields, k).value].1).kind
    else Updated
  }

  /** Away from the inherited names, the source's tag and the own-key child's tag agree. */
  lemma AsWrittenAgreesOffPrototype(o: Json, n: Json, k: string)
    requires o.Obj? && n.Obj?
    requires k in KeysOf(o.fields) || k in KeysOf(n.fields)
    requires k !in InheritedNames && k != "__proto__"
    ensures ChildKindAsWritten(o, n, k) == ObjectChild(o, n, k).kind
  {
  }

  /**
   * On an inherited name that is an own key of exactly one side, the source
   * reports an update, while the own-key child reports the key as added or
   * removed: the two never agree there.
   */
  lemma InheritedOneSideUpdated(o: Json, n: Json, k: string)
    requires o.Obj? && n.Obj?
    requires k in InheritedNames
    requires (k in KeysOf(o.fields)) != (k in KeysOf(n.fields))
    ensures ChildKindAsWritten(o, n, k) == Updated
    ensures ObjectChild(o, n, k).kind == Added || ObjectChild(o, n, k).kind == Removed
    ensures ChildKindAsWritten(o, n, k) != ObjectChild(o, n, k).kind
  {
  }

  /**
   * `{}` against `{"constructor": 1}`: the key is new, and the corrected
   * child says added, but the source's `in` finds `Object.prototype.constructor`
   * in the old object and reports the key as updated.
   */
  lemma ConstructorKeyAdded()
    ensures var o, n := Obj([]), Obj([("constructor", Num(1.0))]);
      && "constructor" !in KeysOf(o.fields)
      && ObjectChild(o, n, "constructor").kind == Added
      && ChildKindAsWritten(o, n, "constructor") == Updated
  {
    var o, n := Obj([]), Obj([("constructor", Num(1.0))]);
    assert KeysOf(n.fields) == ["constructor"];
  }

  /** `{"toString": 1}` against `{}`: corrected, removed; as written, updated. */
  lemma ToStringKeyRemoved()
    ensures var o, n := Obj([("toString", Num(1.0))]), Obj([]);
      && "toString" !in KeysOf(n.fields)
      && ObjectChild(o, n, "toString").kind == Removed
      && ChildKindAsWritten(o, n, "toString") == Updated
  {
    var o, n := Obj([("toString", Num(1.0))]), Obj([]);
    assert KeysOf(o.fields) == ["toString"];
  }
}

=== FILE: single_quotes.dfy ===
/**
 * Single-quote conversion, `replace(/'((?:[^'\\]|\\.)*)'/g, …)`: each
 * single-quoted literal becomes a double-quoted one whose interior double
 * quotes are escaped; every character outside a matched literal is copied.
 *
 * The body `(?:[^'\\]|\\.)*` is deterministic: each repetition is decided by
 * its first character, and a repetition never starts with a quote, so
 * backtracking cannot end the body anywhere but at the end of the greedy run.
 */
module SingleQuotes {
  import opened Text

  /** The end of the greedy body run `(?:[^'\\]|\\.)*` that starts at `j`. */
  function BodyEnd(s: string, j: nat): (e: nat)
    requires j <= |s|
    ensures j <= e <= |s|
    decreases |s| - j
  {
    if j < |s| && s[j] != '\'' && s[j] != '\\' then BodyEnd(s, j + 1)
    else if j + 1 < |s| && s[j] == '\\' && !IsLineTerminator(s[j + 1]) then BodyEnd(s, j + 2)
    else j
  }

  /** A whole string matches `(?:[^'\\]|\\.)*`. */
  predicate IsBody(b: string)
    decreases |b|
  {
    b == [] ||
    (b[0] != '\'' && b[0] != '\\' && IsBody(b[1..])) ||
    (|b| >= 2 && b[0] == '\\' && !IsLineTerminator(b[1]) && IsBody(b[2..]))
  }

  /** A piece of the scanned text: a character copied as it is, or a matched literal with its body. */
  datatype Piece = Plain(c: char) | Quoted(body: string)

  /** A match starts at `i`: a quote, a body, and a closing quote right after the body. */
  predicate LiteralAt(s: string, i: nat)
    requires i < |s|
  {
    s[i] == '\'' && BodyEnd(s, i + 1) < |s| && s[BodyEnd(s, i + 1)] == '\''
  }

  /** The global scan from `i` on, as the sequence of pieces it produces. */
  function Scan(s: string, i: nat): seq<Piece>
    requires i <= |s|
    decreases |s| - i
  {
    if i == |s| then []
    else if LiteralAt(s, i) then
      var e := BodyEnd(s, i + 1);
      [Quoted(s[i + 1..e])] + Scan(s, e + 1)
    else [Plain(s[i])] + Scan(s, i + 1)
  }

  /** The text the pieces were read from. */
  function Source(ps: seq<Piece>): string {
    if ps == [] then []
    else
      (match ps[0]
       case Plain(c) => [c]
       case Quoted(b) => "'" + b + "'") + Source(ps[1..])
  }

  /** `content.replace(/"/g, '\\"')`. */
  function EscapeDoubleQuotes(b: string): (r: string)
    ensures |r| >= |b|
    ensures r != [] ==> r[0] != '"'
    ensures forall k | 0 <= k < |r| && r[k] == '"' :: k > 0 && r[k - 1] == '\\'
  {
    if b == [] then []
    else (if b[0] == '"' then "\\\"" else [b[0]]) + EscapeDoubleQuotes(b[1..])
  }

  /** The inverse of the escaping: every `\"` read back as `"`. */
  function UnescapeDoubleQuotes(r: string): string
    decreases |r|
  {
    if r == [] then []
    else if |r| >= 2 && r[0] == '\\' && r[1] == '"' then "\"" + UnescapeDoubleQuotes(r[2..])
    else [r[0]] + UnescapeDoubleQuotes(r[1..])
  }

  /** The text the pieces become: each literal wrapped in double quotes, its interior quotes escaped. */
  function Render(ps: seq<Piece>): string {
    if ps == [] then []
    else
      (match ps[0]
       case Plain(c) => [c]
       case Quoted(b) => "\"" + EscapeDoubleQuotes(b) + "\"") + Render(ps[1..])
  }

  function ConvertSingleQuotes(s: string): string {
    Render(Scan(s, 0))
  }

  lemma {:induction false} SourceAppend(a: seq<Piece>, b: seq<Piece>)
    ensures Source(a + b) == Source(a) + Source(b)
  {
    if a != [] {
      assert (a + b)[0] == a[0];
      assert (a + b)[1..] == a[1..] + b;
      SourceAppend(a[1..], b);
    } else {
      assert a + b == b;
    }
  }

  /**
   * Conversely, a body that runs up to a quote is the greedy run: from `j`,
   * the run ends exactly at that quote, escaped pairs included.
   */
  lemma {:induction false} BodyAtQuote(s: string, j: nat, e: nat)
    requires j <= e < |s| && IsBody(s[j..e]) && s[e] == '\''
    ensures BodyEnd(s, j) == e
    decreases e - j
  {
    var b := s[j..e];
    if b == [] {
      assert j == e;
    } else if b[0] != '\'' && b[0] != '\\' && IsBody(b[1..]) {
      assert b[1..] == s[j + 1..e];
      BodyAtQuote(s, j + 1, e);
    } else {
      assert s[j] == '\\' && s[j + 1] == b[1];
      assert b[2..] == s[j + 2..e];
      BodyAtQuote(s, j + 2, e);
    }
  }

  /** A quote, a run matching `(?:[^'\\]|\\.)*`, and a quote: the pattern matches there, with that run as its body. */
  lemma LiteralFromBody(s: string, i: nat, e: nat)
    requires i < e < |s| && s[i] == '\'' && s[e] == '\'' && IsBody(s[i + 1..e])
    ensures LiteralAt(s, i) && BodyEnd(s, i + 1) == e
  {
    BodyAtQuote(s, i + 1, e);
  }

  /** The greedy body run is a body. */
  lemma {:induction false} BodyEndIsBody(s: string, j: nat)
    requires j <= |s|
    ensures IsBody(s[j..BodyEnd(s, j)])
    decreases |s| - j
  {
    var e := BodyEnd(s, j);
    var b := s[j..e];
    if j < |s| && s[j] != '\'' && s[j] != '\\' {
      BodyEndIsBody(s, j + 1);
      assert b[1..] == s[j + 1..e];
    } else if j + 1 < |s| && s[j] == '\\' && !IsLineTerminator(s[j + 1]) {
      BodyEndIsBody(s, j + 2);
      assert b[2..] == s[j + 2..e];
    } else {
      assert b == [];
    }
  }

  lemma SplitQuoted(s: string, i: nat, e: nat)
    requires i < e < |s| && s[i] == '\'' && s[e] == '\''
    ensures s[i..] == "'" + s[i + 1..e] + "'" + s[e + 1..]
  {
    assert s[e..] == [s[e]] + s[e + 1..];
    assert s[i + 1..] == s[i + 1..e] + s[e..];
    assert s[i..] == [s[i]] + s[i + 1..];
  }

  /** The scan loses nothing: reading the pieces back gives the scanned text. */
  lemma {:induction false} ScanSource(s: string, i: nat)
    requires i <= |s|
    ensures Source(Scan(s, i)) == s[i..]
    decreases |s| - i, 1
  {
    if i < |s| {
      if LiteralAt(s, i) {
        ScanSourceQuoted(s, i);
      } else {
        ScanSourcePlain(s, i);
      }
    }
  }

  /** The step of `ScanSource` over a matched literal. */
  lemma {:induction false} ScanSourceQuoted(s: string, i: nat)
    requires i < |s| && LiteralAt(s, i)
    ensures Source(Scan(s, i)) == s[i..]
    decreases |s| - i, 0
  {
    var e := BodyEnd(s, i + 1);
    assert i < e < |s|;
    ScanSource(s, e + 1);
    SourceAtLiteral(s, i, e, Scan(s, e + 1));
  }

  /** The scan at a literal reads back as the text, given that the scan after it does. */
  lemma SourceAtLiteral(s: string, i: nat, e: nat, tail: seq<Piece>)
    requires i < |s| && LiteralAt(s, i) && e == BodyEnd(s, i + 1)
    requires tail == Scan(s, e + 1) && Source(tail) == s[e + 1..]
    ensures Source(Scan(s, i)) == s[i..]
  {
    ScanAtLiteral(s, i);
    QuotedSource(s, i, e, tail);
  }

  /** A literal from `i` to `e` followed by pieces that read back as the rest of the text. */
  lemma QuotedSource(s: string, i: nat, e: nat, tail: seq<Piece>)
    requires i < e < |s| && s[i] == '\'' && s[e] == '\''
    requires Source(tail) == s[e + 1..]
    ensures Source([Quoted(s[i + 1..e])] + tail) == s[i..]
  {
    SourceQuoted(s[i + 1..e], tail);
    SplitQuoted(s, i, e);
  }

  lemma ScanAtLiteral(s: string, i: nat)
    requires i < |s| && LiteralAt(s, i)
    ensures Scan(s, i) == [Quoted(s[i + 1..BodyEnd(s, i + 1)])] + Scan(s, BodyEnd(s, i + 1) + 1)
  {
  }

  /** Reading back a quoted piece followed by more pieces. */
  lemma SourceQuoted(body: string, tail: seq<Piece>)
    ensures Source([Quoted(body)] + tail) == "'" + body + "'" + Source(tail)
  {
    SourceAppend([Quoted(body)], tail);
    assert Source([Quoted(body)]) == "'" + body + "'" + Source([]);
  }

  /** The step of `ScanSource` over a copied character. */
  lemma {:induction false} ScanSourcePlain(s: string, i: nat)
    requires i < |s| && !LiteralAt(s, i)
    ensures Source(Scan(s, i)) == s[i..]
    decreases |s| - i, 0
  {
    var head := [Plain(s[i])];
    var tail := Scan(s, i + 1);
    assert Scan(s, i) == head + tail;
    ScanSource(s, i + 1);
    SourceAppend(head, tail);
    assert Source(head) == [s[i]] + Source([]);
    assert s[i..] == [s[i]] + s[i + 1..];
  }

  /** Every quoted piece of `ps` has a body matching `(?:[^'\\]|\\.)*`. */
  predicate BodiesOk(ps: seq<Piece>) {
    forall p | p in ps && p.Quoted? :: IsBody(p.body)
  }

  /** Every matched literal's body matches `(?:[^'\\]|\\.)*`. */
  lemma {:induction false} ScanBodies(s: string, i: nat)
    requires i <= |s|
    ensures BodiesOk(Scan(s, i))
    decreases |s| - i, 1
  {
    if i < |s| {
      if LiteralAt(s, i) {
        ScanBodiesQuoted(s, i);
      } else {
        ScanBodiesPlain(s, i);
      }
    }
  }

  lemma {:induction false} ScanBodiesQuoted(s: string, i: nat)
    requires i < |s| && LiteralAt(s, i)
    ensures BodiesOk(Scan(s, i))
    decreases |s| - i, 0
  {
    var e := BodyEnd(s, i + 1);
    ScanBodies(s, e + 1);
    BodyEndIsBody(s, i + 1);
    BodiesQuoted(s[i + 1..e], Scan(s, e + 1));
    ScanAtLiteral(s, i);
  }

  lemma BodiesQuoted(body: string, tail: seq<Piece>)
    requires IsBody(body) && BodiesOk(tail)
    ensures BodiesOk([Quoted(body)] + tail)
  {
    BodiesAppend([Quoted(body)], tail);
  }

  lemma {:induction false} ScanBodiesPlain(s: string, i: nat)
    requires i < |s| && !LiteralAt(s, i)
    ensures BodiesOk(Scan(s, i))
    decreases |s| - i, 0
  {
    assert Scan(s, i) == [Plain(s[i])] + Scan(s, i + 1);
    ScanBodies(s, i + 1);
    BodiesAppend([Plain(s[i])], Scan(s, i + 1));
  }

  lemma BodiesAppend(a: seq<Piece>, b: seq<Piece>)
    requires BodiesOk(a) && BodiesOk(b)
    ensures BodiesOk(a + b)
  {
  }

  /** Unescaping undoes the escaping, so the literal's content is recoverable from its rendered form. */
  lemma {:induction false} UnescapeEscape(b: string)
    ensures UnescapeDoubleQuotes(EscapeDoubleQuotes(b)) == b
  {
    if b != [] {
      var rest := EscapeDoubleQuotes(b[1..]);
      UnescapeEscape(b[1..]);
      if b[0] == '"' {
        assert EscapeDoubleQuotes(b) == "\\\"" + rest;
        assert ("\\\"" + rest)[2..] == rest;
      } else {
        assert EscapeDoubleQuotes(b) == [b[0]] + rest;
        assert ([b[0]] + rest)[1..] == rest;
        if b[0] == '\\' && rest != [] {
          assert ([b[0]] + rest)[1] == rest[0] != '"';
        }
      }
    }
  }

  /** Text without a single quote scans to plain pieces only. */
  lemma {:induction false} ScanNoQuote(s: string, i: nat)
    requires i <= |s|
    requires forall k | i <= k < |s| :: s[k] != '\''
    ensures Render(Scan(s, i)) == s[i..]
    decreases |s| - i
  {
    if i < |s| {
      ScanNoQuote(s, i + 1);
      assert Scan(s, i) == [Plain(s[i])] + Scan(s, i + 1);
      assert s[i..] == [s[i]] + s[i + 1..];
    }
  }

  /** A character that is not a single quote is copied, and the rendering goes on after it. */
  lemma RenderPlain(s: string, i: nat)
    requires i < |s| && s[i] != '\''
    ensures Render(Scan(s, i)) == [s[i]] + Render(Scan(s, i + 1))
  {
    assert Scan(s, i) == [Plain(s[i])] + Scan(s, i + 1);
    assert ([Plain(s[i])] + Scan(s, i + 1))[1..] == Scan(s, i + 1);
  }

  /** Rendering a literal followed by more pieces. */
  lemma RenderQuoted(body: string, tail: seq<Piece>)
    ensures Render([Quoted(body)] + tail) == "\"" + EscapeDoubleQuotes(body) + "\"" + Render(tail)
  {
    assert ([Quoted(body)] + tail)[1..] == tail;
  }

  /**
   * Each single-quoted literal the scan reaches becomes a double-quoted one
   * holding its content with every `"` escaped; the text before it, which
   * holds no single quote, is copied.
   */
  lemma {:induction false} ConvertLiteral(s: string, i: nat, m: nat)
    requires i <= m < |s| && LiteralAt(s, m)
    requires forall k | i <= k < m :: s[k] != '\''
    ensures var e := BodyEnd(s, m + 1);
      Render(Scan(s, i)) ==
        s[i..m] + "\"" + EscapeDoubleQuotes(s[m + 1..e]) + "\"" + Render(Scan(s, e + 1))
    decreases m - i, 1
  {
    if i == m {
      RenderAtLiteral(s, m);
      assert s[i..m] == [];
    } else {
      ConvertLiteralPlain(s, i, m);
    }
  }

  /** The step of `ConvertLiteral` over a copied character before the literal. */
  lemma {:induction false} ConvertLiteralPlain(s: string, i: nat, m: nat)
    requires i < m < |s| && LiteralAt(s, m)
    requires forall k | i <= k < m :: s[k] != '\''
    ensures var e := BodyEnd(s, m + 1);
      Render(Scan(s, i)) ==
        s[i..m] + "\"" + EscapeDoubleQuotes(s[m + 1..e]) + "\"" + Render(Scan(s, e + 1))
    decreases m - i, 0
  {
    var e := BodyEnd(s, m + 1);
    RenderPlain(s, i);
    ConvertLiteral(s, i + 1, m);
    ConsChain(s, i, m, Render(Scan(s, i)), Render(Scan(s, i + 1)),
      "\"", EscapeDoubleQuotes(s[m + 1..e]), "\"", Render(Scan(s, e + 1)));
  }

  /** `s[i]` put in front of a text that starts with `s[i + 1..m]` makes it start with `s[i..m]`. */
  lemma ConsChain(s: string, i: nat, m: nat, x: string, y: string, b: string, c: string, d: string, e: string)
    requires i < m <= |s|
    requires x == [s[i]] + y && y == s[i + 1..m] + b + c + d + e
    ensures x == s[i..m] + b + c + d + e
  {
    assert s[i..m] == [s[i]] + s[i + 1..m];
  }

  /** The literal at `m` rendered, followed by the rest of the scan. */
  lemma RenderAtLiteral(s: string, m: nat)
    requires m < |s| && LiteralAt(s, m)
    ensures var e := BodyEnd(s, m + 1);
      Render(Scan(s, m)) == "\"" + EscapeDoubleQuotes(s[m + 1..e]) + "\"" + Render(Scan(s, e + 1))
  {
    ScanAtLiteral(s, m);
    RenderQuoted(s[m + 1..BodyEnd(s, m + 1)], Scan(s, BodyEnd(s, m + 1) + 1));
  }

  /** A run without quotes or backslashes is read whole as a body. */
  lemma {:induction false} BodyEndSimple(s: string, j: nat, e: nat)
    requires j <= e <= |s|
    requires forall k | j <= k < e :: s[k] != '\'' && s[k] != '\\'
    requires e == |s| || s[e] == '\''
    ensures BodyEnd(s, j) == e
    decreases e - j
  {
    if j < e {
      BodyEndSimple(s, j + 1, e);
    }
  }

  /** `s` is `a`, a literal with body `b` starting at `m` and closing at `e`, then `c`, with no other single quote. */
  predicate OneLiteralLayout(s: string, m: nat, e: nat, a: string, b: string, c: string) {
    && m < e < |s| && LiteralAt(s, m) && BodyEnd(s, m + 1) == e
    && s[0..m] == a && s[m + 1..e] == b && s[e + 1..] == c
    && (forall k | 0 <= k < m :: s[k] != '\'')
    && (forall k | e + 1 <= k < |s| :: s[k] != '\'')
  }

  /**
   * A text made of `a`, one matched literal with content `b`, and `c`, with no
   * other single quote, becomes `a`, then `b` double-quoted with its `"`
   * escaped, then `c`.
   */
  lemma ConvertPieces(s: string, m: nat, e: nat, a: string, b: string, c: string)
    requires OneLiteralLayout(s, m, e, a, b, c)
    ensures ConvertSingleQuotes(s) == a + "\"" + EscapeDoubleQuotes(b) + "\"" + c
  {
    ConvertOnlyLiteral(s, m);
  }

  /** The literal at `m` is the only single quote pair of the text: it is converted and the rest copied. */
  lemma ConvertOnlyLiteral(s: string, m: nat)
    requires m < |s| && LiteralAt(s, m)
    requires forall k | 0 <= k < m :: s[k] != '\''
    requires forall k | BodyEnd(s, m + 1) + 1 <= k < |s| :: s[k] != '\''
    ensures var e := BodyEnd(s, m + 1);
      ConvertSingleQuotes(s) == s[0..m] + "\"" + EscapeDoubleQuotes(s[m + 1..e]) + "\"" + s[e + 1..]
  {
    var e := BodyEnd(s, m + 1);
    ConvertLiteral(s, 0, m);
    ScanNoQuote(s, e + 1);
  }

  /** Without a single quote in the text, the conversion changes nothing. */
  lemma ConvertWithoutQuotes(s: string)
    requires forall k | 0 <= k < |s| :: s[k] != '\''
    ensures ConvertSingleQuotes(s) == s
  {
    ScanNoQuote(s, 0);
    assert s[0..] == s;
  }

  /**
   * Piece `p` read at position `pos` is the one the global match takes there:
   * a literal exactly where one matches, with the greedy body, and a copied
   * character everywhere else.
   */
  predicate PieceAt(s: string, pos: nat, p: Piece) {
    pos < |s| &&
    (p.Plain? <==> !LiteralAt(s, pos)) &&
    (p.Plain? ==> p.c == s[pos]) &&
    (p.Quoted? ==> p.body == s[pos + 1..BodyEnd(s, pos + 1)])
  }

  /** Every piece of `ps`, read from position `i` on, is the one the match takes at its offset. */
  predicate Greedy(s: string, i: nat, ps: seq<Piece>) {
    forall t | 0 <= t < |ps| :: PieceAt(s, i + |Source(ps[..t])|, ps[t])
  }

  /**
   * The scan takes every literal it reaches: a quote is copied as it is only
   * where no literal starts, and each literal is taken whole, with the
   * longest body the pattern allows.
   */
  lemma {:induction false} ScanGreedy(s: string, i: nat)
    requires i <= |s|
    ensures Greedy(s, i, Scan(s, i))
    decreases |s| - i, 1
  {
    if i < |s| {
      if LiteralAt(s, i) {
        ScanGreedyQuoted(s, i);
      } else {
        ScanGreedyPlain(s, i);
      }
    }
  }

  /**
   * The conversion leaves a single quote in place only where no literal
   * starts: every `'` the scan copies sits at a position the pattern cannot
   * match from.
   */
  lemma QuoteKeptOnlyWithoutLiteral(s: string, t: nat)
    requires t < |Scan(s, 0)| && Scan(s, 0)[t] == Plain('\'')
    ensures var pos := |Source(Scan(s, 0)[..t])|; pos < |s| && s[pos] == '\'' && !LiteralAt(s, pos)
    ensures var pos := |Source(Scan(s, 0)[..t])|;
      forall e | pos < e < |s| && s[e] == '\'' :: !IsBody(s[pos + 1..e])
  {
    ScanGreedy(s, 0);
    var pos := |Source(Scan(s, 0)[..t])|;
    assert PieceAt(s, 0 + pos, Scan(s, 0)[t]);
    forall e | pos < e < |s| && s[e] == '\'' && IsBody(s[pos + 1..e])
      ensures false
    {
      LiteralFromBody(s, pos, e);
    }
  }

  lemma {:induction false} ScanGreedyQuoted(s: string, i: nat)
    requires i < |s| && LiteralAt(s, i)
    ensures Greedy(s, i, Scan(s, i))
    decreases |s| - i, 0
  {
    ScanGreedy(s, BodyEnd(s, i + 1) + 1);
    GreedyLiteral(s, i, Scan(s, BodyEnd(s, i + 1) + 1));
    ScanAtLiteral(s, i);
  }

  /** A matched literal at `i`, followed by greedy pieces from just past its closing quote. */
  lemma GreedyLiteral(s: string, i: nat, rest: seq<Piece>)
    requires i < |s| && LiteralAt(s, i)
    requires Greedy(s, BodyEnd(s, i + 1) + 1, rest)
    ensures Greedy(s, i, [Quoted(s[i + 1..BodyEnd(s, i + 1)])] + rest)
  {
    var p := Quoted(s[i + 1..BodyEnd(s, i + 1)]);
    SourceOne(p);
    GreedyCons(s, i, BodyEnd(s, i + 1) + 1, p, rest);
  }

  lemma {:induction false} ScanGreedyPlain(s: string, i: nat)
    requires i < |s| && !LiteralAt(s, i)
    ensures Greedy(s, i, Scan(s, i))
    decreases |s| - i, 0
  {
    var p := Plain(s[i]);
    ScanGreedy(s, i + 1);
    assert Scan(s, i) == [p] + Scan(s, i + 1);
    SourceOne(p);
    GreedyCons(s, i, i + 1, p, Scan(s, i + 1));
  }

  /** The length of the text one piece was read from. */
  lemma SourceOne(p: Piece)
    ensures |Source([p])| == if p.Plain? then 1 else |p.body| + 2
  {
    assert [p][1..] == [];
  }

  /** A piece at `i` that spans up to `j`, followed by greedy pieces from `j`. */
  lemma GreedyCons(s: string, i: nat, j: nat, p: Piece, rest: seq<Piece>)
    requires PieceAt(s, i, p) && i + |Source([p])| == j
    requires Greedy(s, j, rest)
    ensures Greedy(s, i, [p] + rest)
  {
    forall t | 0 <= t < |[p] + rest|
      ensures PieceAt(s, i + |Source(([p] + rest)[..t])|, ([p] + rest)[t])
    {
      GreedyConsAt(s, i, j, p, rest, t);
    }
  }

  lemma GreedyConsAt(s: string, i: nat, j: nat, p: Piece, rest: seq<Piece>, t: nat)
    requires PieceAt(s, i, p) && i + |Source([p])| == j
    requires Greedy(s, j, rest)
    requires t < |[p] + rest|
    ensures PieceAt(s, i + |Source(([p] + rest)[..t])|, ([p] + rest)[t])
  {
    if t == 0 {
      assert ([p] + rest)[..t] == [];
    } else {
      OffsetPastHead(p, rest, t);
      assert PieceAt(s, j + |Source(rest[..t - 1])|, rest[t - 1]);
    }
  }

  /** The offset of piece `t` of `[p] + rest` is the head's length plus the offset of piece `t - 1` of `rest`. */
  lemma OffsetPastHead(p: Piece, rest: seq<Piece>, t: nat)
    requires 0 < t <= |rest|
    ensures |Source(([p] + rest)[..t])| == |Source([p])| + |Source(rest[..t - 1])|
    ensures ([p] + rest)[t] == rest[t - 1]
  {
    assert ([p] + rest)[..t] == [p] + rest[..t - 1];
    SourceAppend([p], rest[..t - 1]);
  }
}

=== FILE: structural_diff.dfy ===
/**
 * The structural diff `generateDiff(oldObj, newObj)`: a tree of nodes tagged
 * unchanged, added, removed or updated. `Diff` states the result as a
 * recursive function; the method `GenerateDiff` builds the same tree the way
 * the source does, with a loop that fills the children in order and a
 * `hasChanges` flag.
 */
module StructuralDiff {
  import opened Options
  import opened JsonValue
  import opened DiffKeys

  datatype Kind = Unchanged | Added | Removed | Updated

  /**
   * `value` is always present; `oldValue` only on a changed leaf; `children`
   * (key and node, in insertion order) only when both sides are arrays or both
   * are objects.
   */
  datatype DiffNode = DiffNode(
    kind: Kind,
    value: Json,
    oldValue: Option<Json>,
    children: Option<seq<(string, DiffNode)>>)

  function Leaf(kind: Kind, value: Json): DiffNode {
    DiffNode(kind, value, None, None)
  }

  /** `{ type: 'updated', value: newObj, oldValue: oldObj }`. */
  function Changed(o: Json, n: Json): DiffNode {
    DiffNode(Updated, n, Some(o), None)
  }

  predicate HasChanges(cs: seq<(string, DiffNode)>) {
    exists j | 0 <= j < |cs| :: cs[j].1.kind != Unchanged
  }

  /** `{ type: hasChanges ? 'updated' : 'unchanged', value: newObj, children }`. */
  function Container(cs: seq<(string, DiffNode)>, n: Json): DiffNode {
    DiffNode(if HasChanges(cs) then Updated else Unchanged, n, None, Some(cs))
  }

  function Max(a: nat, b: nat): nat {
    if a < b then b else a
  }

  predicate BothContainers(o: Json, n: Json) {
    (o.Arr? && n.Arr?) || (o.Obj? && n.Obj?)
  }

  /**
   * The child at index `i` of two arrays: added where only the new array
   * reaches, removed where only the old one does; its value is the new
   * element, or the old one when removed.
   */
  function ArrayChild(o: Json, n: Json, i: nat): (r: DiffNode)
    requires o.Arr? && n.Arr? && i < Max(|o.items|, |n.items|)
    ensures r.kind == Added <==> i >= |o.items|
    ensures r.kind == Removed <==> |n.items| <= i < |o.items|
    ensures r.value == if i < |n.items| then n.items[i] else o.items[i]
    decreases o, 0
  {
    if i >= |o.items| then Leaf(Added, n.items[i])
    else if i >= |n.items| then Leaf(Removed, o.items[i])
    else Diff(o.items[i], n.items[i])
  }

  function ArrayChildren(o: Json, n: Json): seq<(string, DiffNode)>
    requires o.Arr? && n.Arr?
    decreases o, 1
  {
    var m := Max(|o.items|, |n.items|);
    seq(m, i requires 0 <= i < m => (IndexKey(i), ArrayChild(o, n, i)))
  }

  /** `new Set([...Object.keys(oldObj), ...Object.keys(newObj)])`, in iteration order. */
  function UnionKeys(o: Json, n: Json): (ks: seq<string>)
    requires o.Obj? && n.Obj?
    ensures Distinct(ks)
    ensures forall k :: k in ks <==> k in KeysOf(o.fields) || k in KeysOf(n.fields)
  {
    Dedup(KeysOf(o.fields) + KeysOf(n.fields))
  }

  /**
   * The child under key `k` of two objects; `k in obj` is own-key membership.
   * Added exactly when the old object lacks the key, removed exactly when
   * only the old object has it; its value is the new member's, or the old
   * member's when removed.
   */
  function ObjectChild(o: Json, n: Json, k: string): (r: DiffNode)
    requires o.Obj? && n.Obj?
    requires k in KeysOf(o.fields) || k in KeysOf(n.fields)
    ensures r.kind == Added <==> k !in KeysOf(o.fields)
    ensures r.kind == Removed <==> k in KeysOf(o.fields) && k !in KeysOf(n.fields)
    ensures r.value == if k in KeysOf(n.fields) then n.fields[Find(n.fields, k).value].1
      else o.fields[Find(o.fields, k).value].1
    decreases o, 0
  {
    match Find(o.fields, k)
    case None => Leaf(Added, n.fields[Find(n.fields, k).value].1)
    case Some(a) =>
      match Find(n.fields, k)
      case None => Leaf(Removed, o.fields[a].1)
      case Some(b) => Diff(o.fields[a].1, n.fields[b].1)
  }

  function ObjectChildren(o: Json, n: Json): seq<(string, DiffNode)>
    requires o.Obj? && n.Obj?
    decreases o, 1
  {
    var keys := UnionKeys(o, n);
    seq(|keys|, t requires 0 <= t < |keys| => (keys[t], ObjectChild(o, n, keys[t])))
  }

  /**
   * The diff of two JSON values. Its value is always the new side; it is
   * never tagged added or removed; it has children exactly when both sides
   * are arrays or both are objects, and is then updated exactly when some
   * child is not unchanged; otherwise it is unchanged when the two sides are
   * equal and else an updated leaf that remembers the old value.
   */
  function Diff(o: Json, n: Json): (r: DiffNode)
    ensures r.value == n
    ensures r.kind == Unchanged || r.kind == Updated
    ensures r.children.Some? <==> BothContainers(o, n)
    ensures r.children.Some? ==> (r.kind == Updated <==> HasChanges(r.children.value))
    ensures !BothContainers(o, n) ==> (r.kind == Unchanged <==> o == n)
    ensures r.oldValue.Some? <==> !BothContainers(o, n) && o != n
    ensures r.oldValue.Some? ==> r.oldValue.value == o
    decreases o, 2
  {
    if StrictEquals(o, n) then Leaf(Unchanged, o)
    else if TypeOf(o) != TypeOf(n) || o.Null? || n.Null? || TypeOf(o) != TObject then Changed(o, n)
    else if o.Arr? && n.Arr? then Container(ArrayChildren(o, n), n)
    else if !o.Arr? && !n.Arr? then Container(ObjectChildren(o, n), n)
    else Changed(o, n)
  }

  /** Appending one child: the list has changes when it had some or the new child is not unchanged. */
  lemma HasChangesAppend(cs: seq<(string, DiffNode)>, c: (string, DiffNode))
    ensures HasChanges(cs + [c]) <==> HasChanges(cs) || c.1.kind != Unchanged
  {
    if c.1.kind != Unchanged {
      assert (cs + [c])[|cs|] == c;
    }
    if HasChanges(cs) {
      var j :| 0 <= j < |cs| && cs[j].1.kind != Unchanged;
      assert (cs + [c])[j] == cs[j];
    }
  }

  /**
   * `generateDiff` as the source runs it: the identity short-circuit, the
   * `typeof` tests, then a loop over the indexes or the key union that
   * records each child in order and raises `hasChanges` on any change.
   */
  method GenerateDiff(o: Json, n: Json) returns (r: DiffNode)
    ensures r == Diff(o, n)
    decreases o, 2
  {
    if StrictEquals(o, n) {
      return Leaf(Unchanged, o);
    }
    if TypeOf(o) != TypeOf(n) || o.Null? || n.Null? || TypeOf(o) != TObject {
      return Changed(o, n);
    }
    if o.Arr? && n.Arr? {
      r := GenerateArrayDiff(o, n);
      return;
    }
    if !o.Arr? && !n.Arr? {
      r := GenerateObjectDiff(o, n);
      return;
    }
    return Changed(o, n);
  }

  /** The array branch of `generateDiff`: one child per index up to the longer length. */
  method GenerateArrayDiff(o: Json, n: Json) returns (r: DiffNode)
    requires o.Arr? && n.Arr?
    ensures r == Container(ArrayChildren(o, n), n)
    decreases o, 1
  {
    ghost var all := ArrayChildren(o, n);
    var children: seq<(string, DiffNode)> := [];
    var maxLen := Max(|o.items|, |n.items|);
    var hasChanges := false;
    for i := 0 to maxLen
      invariant children == all[..i]
      invariant hasChanges == HasChanges(children)
    {
      var child: DiffNode;
      if i >= |o.items| {
        child := Leaf(Added, n.items[i]);
        hasChanges := true;
      } else if i >= |n.items| {
        child := Leaf(Removed, o.items[i]);
        hasChanges := true;
      } else {
        child := GenerateDiff(o.items[i], n.items[i]);
        if child.kind != Unchanged {
          hasChanges := true;
        }
      }
      assert child == ArrayChild(o, n, i);
      assert all[..i + 1] == all[..i] + [(IndexKey(i), child)];
      HasChangesAppend(children, (IndexKey(i), child));
      children := children + [(IndexKey(i), child)];
    }
    assert children == all;
    return DiffNode(if hasChanges then Updated else Unchanged, n, None, Some(children));
  }

  /** The object branch of `generateDiff`: one child per key of the union, in order. */
  method GenerateObjectDiff(o: Json, n: Json) returns (r: DiffNode)
    requires o.Obj? && n.Obj?
    ensures r == Container(ObjectChildren(o, n), n)
    decreases o, 1
  {
    ghost var all := ObjectChildren(o, n);
    var children: seq<(string, DiffNode)> := [];
    var keys := UnionKeys(o, n);
    var hasChanges := false;
    assert |all| == |keys|;
    for t := 0 to |keys|
      invariant children == all[..t]
      invariant hasChanges == HasChanges(children)
    {
      var key := keys[t];
      var child := GenerateObjectChild(o, n, key);
      if child.kind != Unchanged {
        hasChanges := true;
      }
      assert all[..t + 1] == all[..t] + [(key, child)];
      HasChangesAppend(children, (key, child));
      children := children + [(key, child)];
    }
    assert children == all;
    return DiffNode(if hasChanges then Updated else Unchanged, n, None, Some(children));
  }

  /** The child under one key of the union: added, removed, or the diff of the two values. */
  method GenerateObjectChild(o: Json, n: Json, key: string) returns (child: DiffNode)
    requires o.Obj? && n.Obj?
    requires key in KeysOf(o.fields) || key in KeysOf(n.fields)
    ensures child == ObjectChild(o, n, key)
    decreases o, 0
  {
    var a := Find(o.fields, key);
    var b := Find(n.fields, key);
    if a.None? {
      child := Leaf(Added, n.fields[b.value].1);
    } else if b.None? {
      child := Leaf(Removed, o.fields[a.value].1);
    } else {
      child := GenerateDiff(o.fields[a.value].1, n.fields[b.value].1);
    }
  }
}

=== FILE: text.dfy ===
/**
 * Character classes and the two simplest text rewrites of the recovery parser:
 * `String.prototype.trim` and the removal of every `[\r\n]+` run. Character
 * classes are the ASCII ones.
 */
module Text {

  /** `\s` restricted to ASCII: space, tab, line feed, vertical tab, form feed, carriage return. */
  predicate IsSpace(c: char) {
    c == ' ' || c == '\t' || c == '\n' || c == '\U{000B}' || c == '\U{000C}' || c == '\r'
  }

  /** `\w`, the class that decides where `\b` holds. */
  predicate IsWordChar(c: char) {
    ('a' <= c <= 'z') || ('A' <= c <= 'Z') || ('0' <= c <= '9') || c == '_'
  }

  /** The characters `.` refuses to match in a JavaScript regular expression without the `s` flag. */
  predicate IsLineTerminator(c: char) {
    c == '\n' || c == '\r' || c == '\U{2028}' || c == '\U{2029}'
  }

  predicate IsLineBreak(c: char) {
    c == '\r' || c == '\n'
  }

  /** The first position at or after `i` that does not hold whitespace. */
  function SkipSpaces(s: string, i: nat): (j: nat)
    requires i <= |s|
    ensures i <= j <= |s|
    ensures forall k | i <= k < j :: IsSpace(s[k])
    ensures j < |s| ==> !IsSpace(s[j])
    decreases |s| - i
  {
    if i == |s| || !IsSpace(s[i]) then i else SkipSpaces(s, i + 1)
  }

  /** The smallest `e <= j` such that `s[e..j]` is all whitespace. */
  function SkipSpacesBack(s: string, j: nat): (e: nat)
    requires j <= |s|
    ensures e <= j
    ensures forall k | e <= k < j :: IsSpace(s[k])
    ensures e > 0 ==> !IsSpace(s[e - 1])
  {
    if j == 0 || !IsSpace(s[j - 1]) then j else SkipSpacesBack(s, j - 1)
  }

  /**
   * `trim`: the text between the leading and the trailing whitespace. It is
   * empty exactly when the whole text is whitespace, otherwise it neither
   * starts nor ends with whitespace and sits in `s` at position `SkipSpaces(s, 0)`
   * with only whitespace around it.
   */
  function Trim(s: string): (r: string)
    ensures r == [] <==> forall k | 0 <= k < |s| :: IsSpace(s[k])
    ensures r != [] ==> !IsSpace(r[0]) && !IsSpace(r[|r| - 1])
    ensures SkipSpaces(s, 0) + |r| <= |s|
    ensures r == s[SkipSpaces(s, 0)..SkipSpaces(s, 0) + |r|]
    ensures forall k | SkipSpaces(s, 0) + |r| <= k < |s| :: IsSpace(s[k])
  {
    var a := SkipSpaces(s, 0);
    if a == |s| then []
    else
      var b := SkipSpacesBack(s, |s|);
      assert !IsSpace(s[a]);
      assert a < b;
      s[a..b]
  }

  /** `replace(/[\r\n]+/g, '')`: every carriage return and line feed deleted, nothing else touched. */
  function RemoveLineBreaks(s: string): (r: string)
    ensures forall k | 0 <= k < |r| :: !IsLineBreak(r[k])
    ensures |r| <= |s|
    ensures (forall k | 0 <= k < |s| :: !IsLineBreak(s[k])) ==> r == s
  {
    if s == [] then []
    else (if IsLineBreak(s[0]) then [] else [s[0]]) + RemoveLineBreaks(s[1..])
  }

  /** Deleting line breaks works piecewise: the result on `a + b` is the result on `a` followed by that on `b`. */
  lemma {:induction false} RemoveLineBreaksAppend(a: string, b: string)
    ensures RemoveLineBreaks(a + b) == RemoveLineBreaks(a) + RemoveLineBreaks(b)
  {
    if a != [] {
      var head := if IsLineBreak(a[0]) then [] else [a[0]];
      assert (a + b)[0] == a[0];
      assert (a + b)[1..] == a[1..] + b;
      assert RemoveLineBreaks(a + b) == head + RemoveLineBreaks(a[1..] + b);
      RemoveLineBreaksAppend(a[1..], b);
      assert RemoveLineBreaks(a) == head + RemoveLineBreaks(a[1..]);
    } else {
      assert a + b == b;
    }
  }

  /** Only line breaks are lost: the removal keeps every other character, and how often it occurs. */
  lemma {:induction false} RemoveLineBreaksKeeps(s: string, c: char)
    requires !IsLineBreak(c)
    ensures multiset(RemoveLineBreaks(s))[c] == multiset(s)[c]
  {
    if s != [] {
      RemoveLineBreaksKeeps(s[1..], c);
      assert s == [s[0]] + s[1..];
    }
  }
}

=== FILE: trailing_commas.dfy ===
/**
 * Trailing-comma removal, `replace(/,(\s*[\]}])/g, '$1')`: a comma whose next
 * non-whitespace character is `]` or `}` is dropped, together with nothing else.
 */
module TrailingCommas {
  import opened Options
  import opened Text

  /** Where `\s*[\]}]` ends when tried at position `i` (the position of the bracket). */
  function ClosingBracketFrom(s: string, i: nat): (r: Option<nat>)
    requires i <= |s|
    ensures r.Some? ==> i <= r.value < |s| && (s[r.value] == ']' || s[r.value] == '}')
    ensures r.Some? ==> forall k | i <= k < r.value :: IsSpace(s[k])
  {
    var j := SkipSpaces(s, i);
    if j < |s| && (s[j] == ']' || s[j] == '}') then Some(j) else None
  }

  /** The comma at `i` is followed by optional whitespace and a closing bracket. */
  predicate IsTrailingComma(s: string, i: nat) {
    i < |s| && s[i] == ',' && ClosingBracketFrom(s, i + 1).Some?
  }

  /**
   * The global replace from position `i` on: a match `,\s*]` is replaced by
   * its group `\s*]` and the scan resumes after the bracket.
   */
  function StripFrom(s: string, i: nat): string
    requires i <= |s|
    decreases |s| - i
  {
    if i == |s| then []
    else if s[i] == ',' && ClosingBracketFrom(s, i + 1).Some? then
      var k := ClosingBracketFrom(s, i + 1).value;
      s[i + 1..k + 1] + StripFrom(s, k + 1)
    else [s[i]] + StripFrom(s, i + 1)
  }

  /** `s.replace(/,(\s*[\]}])/g, '$1')`: agrees with the reference definition, so it never lengthens the text. */
  function RemoveTrailingCommas(s: string): (r: string)
    ensures r == KeepFrom(s, 0)
    ensures |r| <= |s|
  {
    StripFromIsKeep(s, 0);
    StripFrom(s, 0)
  }

  /** Reference definition: position by position, keep every character that is not a trailing comma. */
  function KeepFrom(s: string, i: nat): (r: string)
    requires i <= |s|
    ensures |r| <= |s| - i
    decreases |s| - i
  {
    if i == |s| then []
    else (if IsTrailingComma(s, i) then [] else [s[i]]) + KeepFrom(s, i + 1)
  }

  /** A character other than a comma is kept. */
  lemma KeepPlain(s: string, m: nat)
    requires m < |s| && s[m] != ','
    ensures KeepFrom(s, m) == [s[m]] + KeepFrom(s, m + 1)
  {
  }

  /** Between a trailing comma and its bracket there is no comma, so every character there is kept. */
  lemma {:induction false} KeepRun(s: string, m: nat, k: nat)
    requires m <= k < |s| && (s[k] == ']' || s[k] == '}')
    requires forall t | m <= t < k :: IsSpace(s[t])
    ensures KeepFrom(s, m) == s[m..k + 1] + KeepFrom(s, k + 1)
    decreases k - m
  {
    KeepPlain(s, m);
    var rest := KeepFrom(s, k + 1);
    if m < k {
      KeepRun(s, m + 1, k);
      assert s[m..k + 1] == [s[m]] + s[m + 1..k + 1];
      assert [s[m]] + (s[m + 1..k + 1] + rest) == ([s[m]] + s[m + 1..k + 1]) + rest;
    } else {
      assert s[m..k + 1] == [s[m]];
    }
  }

  /** The regular-expression scan deletes exactly the trailing commas and keeps every other character in order. */
  lemma {:induction false} StripFromIsKeep(s: string, i: nat)
    requires i <= |s|
    ensures StripFrom(s, i) == KeepFrom(s, i)
    decreases |s| - i, 1
  {
    if i < |s| {
      if IsTrailingComma(s, i) {
        StripTrailingComma(s, i);
      } else {
        StripOtherChar(s, i);
      }
    }
  }

  /** The step of `StripFromIsKeep` at a trailing comma: the scan jumps past its bracket. */
  lemma {:induction false} StripTrailingComma(s: string, i: nat)
    requires IsTrailingComma(s, i)
    ensures StripFrom(s, i) == KeepFrom(s, i)
    decreases |s| - i, 0
  {
    var k := ClosingBracketFrom(s, i + 1).value;
    StripAtComma(s, i, k);
    KeepAtComma(s, i, k);
    StripFromIsKeep(s, k + 1);
  }

  lemma StripAtComma(s: string, i: nat, k: nat)
    requires IsTrailingComma(s, i) && ClosingBracketFrom(s, i + 1) == Some(k)
    ensures StripFrom(s, i) == s[i + 1..k + 1] + StripFrom(s, k + 1)
  {
  }

  lemma KeepAtComma(s: string, i: nat, k: nat)
    requires IsTrailingComma(s, i) && ClosingBracketFrom(s, i + 1) == Some(k)
    ensures KeepFrom(s, i) == s[i + 1..k + 1] + KeepFrom(s, k + 1)
  {
    assert KeepFrom(s, i) == KeepFrom(s, i + 1);
    KeepRun(s, i + 1, k);
  }

  /** The step of `StripFromIsKeep` at any other character: it is copied. */
  lemma {:induction false} StripOtherChar(s: string, i: nat)
    requires i < |s| && !IsTrailingComma(s, i)
    ensures StripFrom(s, i) == KeepFrom(s, i)
    decreases |s| - i, 0
  {
    assert StripFrom(s, i) == [s[i]] + StripFrom(s, i + 1);
    assert KeepFrom(s, i) == [s[i]] + KeepFrom(s, i + 1);
    StripFromIsKeep(s, i + 1);
  }

  /** `CountsKept(kept, from, c)`: `kept` has as many `c` as `from` if `c` is not a comma, and never more. */
  predicate CountsKept(kept: string, from: string, c: char) {
    && (c != ',' ==> multiset(kept)[c] == multiset(from)[c])
    && multiset(kept)[c] <= multiset(from)[c]
  }

  /** Dropping a leading comma keeps the counts relation. */
  lemma DropComma(t: string, rest: string, c: char)
    requires CountsKept(rest, t, c)
    ensures CountsKept(rest, [','] + t, c)
  {
    assert multiset([','] + t) == multiset([',']) + multiset(t);
  }

  /** Keeping a leading character on both sides keeps the counts relation. */
  lemma KeepChar(x: char, t: string, rest: string, c: char)
    requires CountsKept(rest, t, c)
    ensures CountsKept([x] + rest, [x] + t, c)
  {
    assert multiset([x] + t) == multiset([x]) + multiset(t);
    assert multiset([x] + rest) == multiset([x]) + multiset(rest);
  }

  /** Every character other than a comma survives with its count unchanged; no comma is added. */
  lemma {:induction false} KeepFromCounts(s: string, i: nat, c: char)
    requires i <= |s|
    ensures CountsKept(KeepFrom(s, i), s[i..], c)
    decreases |s| - i
  {
    if i == |s| {
      assert s[i..] == [];
    } else {
      KeepFromCounts(s, i + 1, c);
      var t, rest := s[i + 1..], KeepFrom(s, i + 1);
      assert s[i..] == [s[i]] + t;
      if IsTrailingComma(s, i) {
        assert KeepFrom(s, i) == rest;
        DropComma(t, rest, c);
      } else {
        assert KeepFrom(s, i) == [s[i]] + rest;
        KeepChar(s[i], t, rest, c);
      }
    }
  }

  /** A text without trailing commas comes out unchanged. */
  lemma {:induction false} KeepFromNoTrailing(s: string, i: nat)
    requires i <= |s|
    requires forall k | i <= k < |s| :: !IsTrailingComma(s, k)
    ensures KeepFrom(s, i) == s[i..]
    decreases |s| - i
  {
    if i < |s| {
      KeepFromNoTrailing(s, i + 1);
      assert s[i..] == [s[i]] + s[i + 1..];
    }
  }

  /**
   * The whole rewrite: exactly the trailing commas go, every other character
   * keeps its count and relative order, and a text without trailing commas is
   * returned as it is.
   */
  lemma RemoveTrailingCommasSpec(s: string)
    ensures RemoveTrailingCommas(s) == KeepFrom(s, 0)
    ensures forall c | c != ',' :: multiset(RemoveTrailingCommas(s))[c] == multiset(s)[c]
    ensures (forall k | 0 <= k < |s| :: !IsTrailingComma(s, k)) ==> RemoveTrailingCommas(s) == s
  {
    StripFromIsKeep(s, 0);
    assert s[0..] == s;
    forall c | c != ','
      ensures multiset(RemoveTrailingCommas(s))[c] == multiset(s)[c]
    {
      KeepFromCounts(s, 0, c);
    }
    if forall k | 0 <= k < |s| :: !IsTrailingComma(s, k) {
      KeepFromNoTrailing(s, 0);
    }
  }

  /** A text without a closing bracket has no trailing comma. */
  lemma StripWithoutClosers(s: string)
    requires forall k | 0 <= k < |s| :: s[k] != ']' && s[k] != '}'
    ensures RemoveTrailingCommas(s) == s
  {
    RemoveTrailingCommasSpec(s);
  }
}

=== FILE: word_replace.dfy ===
/**
 * The Python-literal rewrite `replace(/\bNone\b/g, 'null')` and its two siblings,
 * as the left-to-right scan a global regular expression performs: at each
 * position try the pattern; on a match emit the replacement and resume after
 * the match, otherwise emit the character and move on by one.
 */
module WordReplace {
  import opened Text

  /** Whether position `p` of `s` holds a word character (out of range: no). */
  predicate WordAt(s: string, p: int) {
    0 <= p < |s| && IsWordChar(s[p])
  }

  /** `\b` at position `p`: a word character on exactly one side. */
  predicate Boundary(s: string, p: int) {
    WordAt(s, p - 1) != WordAt(s, p)
  }

  /** `\bw\b` matches at `p`. */
  predicate WholeWordAt(s: string, w: string, p: int) {
    0 <= p && p + |w| <= |s| && s[p..p + |w|] == w && Boundary(s, p) && Boundary(s, p + |w|)
  }

  predicate AllWordChars(w: string) {
    forall k | 0 <= k < |w| :: IsWordChar(w[k])
  }

  /** The scan from position `i` on. */
  function ReplaceFrom(s: string, w: string, rep: string, i: nat): (r: string)
    requires |w| > 0 && i <= |s|
    ensures |rep| == |w| ==> |r| == |s| - i
    decreases |s| - i
  {
    if i == |s| then []
    else if WholeWordAt(s, w, i) then rep + ReplaceFrom(s, w, rep, i + |w|)
    else [s[i]] + ReplaceFrom(s, w, rep, i + 1)
  }

  /** `s.replace(/\bw\b/g, rep)`; a replacement as long as the word keeps the text's length. */
  function ReplaceWholeWord(s: string, w: string, rep: string): (r: string)
    requires |w| > 0
    ensures |rep| == |w| ==> |r| == |s|
  {
    ReplaceFrom(s, w, rep, 0)
  }

  /** Two whole-word matches of a word made of word characters never overlap. */
  lemma NoOverlap(s: string, w: string, p: nat, q: nat)
    requires |w| > 0 && AllWordChars(w)
    requires WholeWordAt(s, w, p) && WholeWordAt(s, w, q) && p < q
    ensures p + |w| <= q
  {
  }

  /** A slice lying inside the second part of a concatenation. */
  lemma SliceOfSuffix(a: string, b: string, x: nat, y: nat)
    requires |a| <= x <= y <= |a| + |b|
    ensures (a + b)[x..y] == b[x - |a|..y - |a|]
  {
    assert forall t | 0 <= t < y - x :: (a + b)[x..y][t] == b[x - |a|..y - |a|][t];
  }

  /** A slice of `x == a + b` past `a` that reads `v` in `b` reads `v` in `x`. */
  lemma SliceThrough(x: string, a: string, b: string, lo: nat, hi: nat, v: string)
    requires x == a + b && |a| <= lo <= hi <= |a| + |b|
    requires b[lo - |a|..hi - |a|] == v
    ensures x[lo..hi] == v
  {
    SliceOfSuffix(a, b, lo, hi);
  }

  /** The scan from `i` writes `rep` over every whole-word match at or after `i`. */
  lemma {:induction false} ReplaceFromHits(s: string, w: string, rep: string, i: nat, p: nat)
    requires |w| > 0 && AllWordChars(w) && |rep| == |w|
    requires i <= p && WholeWordAt(s, w, p)
    ensures ReplaceFrom(s, w, rep, i)[p - i..p - i + |w|] == rep
    decreases |s| - i, 2
  {
    if WholeWordAt(s, w, i) {
      if p == i {
        var rest := ReplaceFrom(s, w, rep, i + |w|);
        assert ReplaceFrom(s, w, rep, i) == rep + rest;
        assert (rep + rest)[..|w|] == rep;
      } else {
        HitsPastMatch(s, w, rep, i, p);
      }
    } else {
      HitsPastPlain(s, w, rep, i, p);
    }
  }

  /** One step of the scan at a match: the replacement, then the scan after the word. */
  lemma ReplaceAtMatch(s: string, w: string, rep: string, i: nat)
    requires |w| > 0 && |rep| == |w| && WholeWordAt(s, w, i)
    ensures ReplaceFrom(s, w, rep, i) == rep + ReplaceFrom(s, w, rep, i + |w|)
    ensures |ReplaceFrom(s, w, rep, i + |w|)| == |s| - i - |w|
  {
  }

  /** One step of the scan away from a match: the character, then the scan after it. */
  lemma ReplaceAtPlain(s: string, w: string, rep: string, i: nat)
    requires |w| > 0 && |rep| == |w| && i < |s| && !WholeWordAt(s, w, i)
    ensures ReplaceFrom(s, w, rep, i) == [s[i]] + ReplaceFrom(s, w, rep, i + 1)
    ensures |ReplaceFrom(s, w, rep, i + 1)| == |s| - i - 1
  {
  }

  /** A later match, when the scan matches at `i` and resumes after the word. */
  lemma {:induction false} HitsPastMatch(s: string, w: string, rep: string, i: nat, p: nat)
    requires |w| > 0 && AllWordChars(w) && |rep| == |w|
    requires i < p && WholeWordAt(s, w, p) && WholeWordAt(s, w, i)
    ensures ReplaceFrom(s, w, rep, i)[p - i..p - i + |w|] == rep
    decreases |s| - i, 1
  {
    NoOverlap(s, w, i, p);
    ReplaceAtMatch(s, w, rep, i);
    HitsPastWord(s, w, rep, i, p);
  }

  /** `HitsPastMatch` once the scan's step at `i` is known to write `rep` over the word. */
  lemma {:induction false} HitsPastWord(s: string, w: string, rep: string, i: nat, p: nat)
    requires |w| > 0 && AllWordChars(w) && |rep| == |w|
    requires i + |w| <= p && WholeWordAt(s, w, p)
    requires ReplaceFrom(s, w, rep, i) == rep + ReplaceFrom(s, w, rep, i + |w|)
    requires |ReplaceFrom(s, w, rep, i + |w|)| == |s| - i - |w|
    ensures ReplaceFrom(s, w, rep, i)[p - i..p - i + |w|] == rep
    decreases |s| - i, 0
  {
    var rest := ReplaceFrom(s, w, rep, i + |w|);
    ReplaceFromHits(s, w, rep, i + |w|, p);
    assert (p - i) - |rep| == p - (i + |w|) && (p - i + |w|) - |rep| == p - (i + |w|) + |w|;
    SliceThrough(ReplaceFrom(s, w, rep, i), rep, rest, p - i, p - i + |w|, rep);
  }

  /** A later match, when the scan copies the character at `i` and moves on by one. */
  lemma {:induction false} HitsPastPlain(s: string, w: string, rep: string, i: nat, p: nat)
    requires |w| > 0 && AllWordChars(w) && |rep| == |w|
    requires i <= p && WholeWordAt(s, w, p) && !WholeWordAt(s, w, i)
    ensures ReplaceFrom(s, w, rep, i)[p - i..p - i + |w|] == rep
    decreases |s| - i, 1
  {
    ReplaceAtPlain(s, w, rep, i);
    HitsPastChar(s, w, rep, i, p);
  }

  /** `HitsPastPlain` once the scan's step at `i` is known to copy one character. */
  lemma {:induction false} HitsPastChar(s: string, w: string, rep: string, i: nat, p: nat)
    requires |w| > 0 && AllWordChars(w) && |rep| == |w|
    requires i < p && WholeWordAt(s, w, p)
    requires ReplaceFrom(s, w, rep, i) == [s[i]] + ReplaceFrom(s, w, rep, i + 1)
    ensures ReplaceFrom(s, w, rep, i)[p - i..p - i + |w|] == rep
    decreases |s| - i, 0
  {
    var rest := ReplaceFrom(s, w, rep, i + 1);
    ReplaceFromHits(s, w, rep, i + 1, p);
    assert (p - i) - |[s[i]]| == p - (i + 1) && (p - i + |w|) - |[s[i]]| == p - (i + 1) + |w|;
    SliceThrough(ReplaceFrom(s, w, rep, i), [s[i]], rest, p - i, p - i + |w|, rep);
  }

  /** A position that no whole-word match from `i` on covers keeps its character. */
  lemma {:induction false} ReplaceFromKeeps(s: string, w: string, rep: string, i: nat, j: nat)
    requires |w| > 0 && AllWordChars(w) && |rep| == |w|
    requires i <= j < |s|
    requires forall p | i <= p <= j && j < p + |w| :: !WholeWordAt(s, w, p)
    ensures ReplaceFrom(s, w, rep, i)[j - i] == s[j]
    decreases |s| - i, 1
  {
    if WholeWordAt(s, w, i) {
      KeepsPastMatch(s, w, rep, i, j);
    } else if j > i {
      KeepsPastPlain(s, w, rep, i, j);
    }
  }

  /** The step of `ReplaceFromKeeps` when the scan matches at `i`: `j` lies past the match. */
  lemma {:induction false} KeepsPastMatch(s: string, w: string, rep: string, i: nat, j: nat)
    requires |w| > 0 && AllWordChars(w) && |rep| == |w|
    requires i <= j < |s| && WholeWordAt(s, w, i)
    requires forall p | i <= p <= j && j < p + |w| :: !WholeWordAt(s, w, p)
    ensures ReplaceFrom(s, w, rep, i)[j - i] == s[j]
    decreases |s| - i, 0
  {
    assert j >= i + |w|;
    var rest := ReplaceFrom(s, w, rep, i + |w|);
    assert |rest| == |s| - i - |w|;
    ReplaceFromKeeps(s, w, rep, i + |w|, j);
    assert ReplaceFrom(s, w, rep, i) == rep + rest;
    assert (rep + rest)[j - i] == rest[j - i - |w|];
  }

  /** The step of `ReplaceFromKeeps` when the scan copies the character at `i < j`. */
  lemma {:induction false} KeepsPastPlain(s: string, w: string, rep: string, i: nat, j: nat)
    requires |w| > 0 && AllWordChars(w) && |rep| == |w|
    requires i < j < |s| && !WholeWordAt(s, w, i)
    requires forall p | i <= p <= j && j < p + |w| :: !WholeWordAt(s, w, p)
    ensures ReplaceFrom(s, w, rep, i)[j - i] == s[j]
    decreases |s| - i, 0
  {
    var rest := ReplaceFrom(s, w, rep, i + 1);
    assert |rest| == |s| - i - 1;
    ReplaceFromKeeps(s, w, rep, i + 1, j);
    assert ReplaceFrom(s, w, rep, i) == [s[i]] + rest;
    assert ([s[i]] + rest)[j - i] == rest[j - i - 1];
  }

  /**
   * For a word and a replacement of the same length made of word characters
   * (`None`/`null`, `True`/`true`, `False`/`false`): every whole-word
   * occurrence is replaced, and every position outside a whole-word occurrence
   * keeps its character, so the text keeps its length and layout.
   */
  lemma ReplaceWholeWordSpec(s: string, w: string, rep: string)
    requires |w| > 0 && AllWordChars(w) && |rep| == |w|
    ensures |ReplaceWholeWord(s, w, rep)| == |s|
    ensures forall p | WholeWordAt(s, w, p) :: ReplaceWholeWord(s, w, rep)[p..p + |w|] == rep
    ensures forall j | 0 <= j < |s| && (forall p | p <= j < p + |w| :: !WholeWordAt(s, w, p)) ::
      ReplaceWholeWord(s, w, rep)[j] == s[j]
  {
    forall p | WholeWordAt(s, w, p)
      ensures ReplaceWholeWord(s, w, rep)[p..p + |w|] == rep
    {
      ReplaceFromHits(s, w, rep, 0, p);
    }
    forall j | 0 <= j < |s| && (forall p | p <= j < p + |w| :: !WholeWordAt(s, w, p))
      ensures ReplaceWholeWord(s, w, rep)[j] == s[j]
    {
      ReplaceFromKeeps(s, w, rep, 0, j);
    }
  }


  /** No whole-word match of `w` at `s` covers position `j`. */
  predicate Untouched(s: string, w: string, j: int) {
    forall p | 0 <= p <= j < p + |w| :: !WholeWordAt(s, w, p)
  }

  /** Overlapping whole-word matches of two words made of word characters are the same match. */
  lemma OverlapSame(s: string, w1: string, w2: string, p: nat, q: nat)
    requires |w1| > 0 && |w2| > 0 && AllWordChars(w1) && AllWordChars(w2)
    requires WholeWordAt(s, w1, p) && WholeWordAt(s, w2, q)
    requires p < q + |w2| && q < p + |w1|
    ensures p == q && w1 == w2
  {
    assert forall k | p <= k < p + |w1| :: s[k] == w1[k - p];
    assert forall k | q <= k < q + |w2| :: s[k] == w2[k - q];
    assert p == q;
    assert |w1| == |w2|;
  }

  /** The rewrite of a word-character word into a word-character replacement keeps every position's class. */
  lemma ReplaceKeepsWordClass(s: string, w: string, rep: string)
    requires |w| > 0 && AllWordChars(w) && AllWordChars(rep) && |rep| == |w|
    ensures |ReplaceWholeWord(s, w, rep)| == |s|
    ensures forall j | 0 <= j < |s| :: WordAt(ReplaceWholeWord(s, w, rep), j) == WordAt(s, j)
  {
    var r := ReplaceWholeWord(s, w, rep);
    ReplaceWholeWordSpec(s, w, rep);
    forall j | 0 <= j < |s|
      ensures WordAt(r, j) == WordAt(s, j)
    {
      if !Untouched(s, w, j) {
        var p :| 0 <= p <= j < p + |w| && WholeWordAt(s, w, p);
        assert r[p..p + |w|] == rep;
        assert r[j] == rep[j - p];
        assert s[j] == s[p..p + |w|][j - p];
      }
    }
  }

  /** Texts that agree on every position's class have the same word boundaries. */
  lemma BoundaryTransfer(s: string, t: string, k: int)
    requires |t| == |s| && forall j | 0 <= j < |s| :: WordAt(t, j) == WordAt(s, j)
    ensures Boundary(t, k) == Boundary(s, k)
  {
    assert WordAt(t, k - 1) == WordAt(s, k - 1);
    assert WordAt(t, k) == WordAt(s, k);
  }

  /** Where two texts agree on every position's class and on a stretch of characters, the same whole-word matches sit on that stretch. */
  lemma WholeWordTransfer(s: string, t: string, w: string, p: nat)
    requires |t| == |s| && forall j | 0 <= j < |s| :: WordAt(t, j) == WordAt(s, j)
    requires p + |w| <= |s| && t[p..p + |w|] == s[p..p + |w|]
    ensures WholeWordAt(t, w, p) == WholeWordAt(s, w, p)
  {
    assert WordAt(t, p - 1) == WordAt(s, p - 1);
    assert WordAt(t, p + |w|) == WordAt(s, p + |w|);
  }

  /** A position under a whole-word match of `w2`, before or after the rewrite, is not rewritten. */
  lemma KeptUnderOtherWord(s: string, w: string, rep: string, w2: string, p: nat, j: nat)
    requires |w| > 0 && AllWordChars(w) && AllWordChars(rep) && |rep| == |w|
    requires |w2| > 0 && AllWordChars(w2) && w2 != w && w2 != rep
    requires p <= j < p + |w2| <= |s|
    requires WholeWordAt(s, w2, p) || WholeWordAt(ReplaceWholeWord(s, w, rep), w2, p)
    ensures ReplaceWholeWord(s, w, rep)[j] == s[j]
  {
    var r := ReplaceWholeWord(s, w, rep);
    if Untouched(s, w, j) {
      ReplaceFromKeeps(s, w, rep, 0, j);
    } else {
      var q :| 0 <= q <= j < q + |w| && WholeWordAt(s, w, q);
      if WholeWordAt(s, w2, p) {
        OverlapSame(s, w2, w, p, q);
        assert false;
      } else {
        RewrittenMatch(s, w, rep, q);
        OverlapSame(r, w2, rep, p, q);
        assert false;
      }
    }
  }

  /** Where `w` matched as a whole word, the rewritten text has `rep` as a whole word. */
  lemma RewrittenMatch(s: string, w: string, rep: string, q: nat)
    requires |w| > 0 && AllWordChars(w) && AllWordChars(rep) && |rep| == |w|
    requires WholeWordAt(s, w, q)
    ensures WholeWordAt(ReplaceWholeWord(s, w, rep), rep, q)
  {
    var r := ReplaceWholeWord(s, w, rep);
    ReplaceKeepsWordClass(s, w, rep);
    ReplaceFromHits(s, w, rep, 0, q);
    BoundaryTransfer(s, r, q);
    BoundaryTransfer(s, r, q + |w|);
  }

  /**
   * Rewriting `w` into `rep` neither creates nor destroys whole-word matches
   * of a third word `w2`: the later rewrites see exactly the original's matches.
   */
  lemma ReplaceKeepsOtherWord(s: string, w: string, rep: string, w2: string, p: nat)
    requires |w| > 0 && AllWordChars(w) && AllWordChars(rep) && |rep| == |w|
    requires |w2| > 0 && AllWordChars(w2) && w2 != w && w2 != rep
    ensures WholeWordAt(ReplaceWholeWord(s, w, rep), w2, p) <==> WholeWordAt(s, w2, p)
  {
    var r := ReplaceWholeWord(s, w, rep);
    ReplaceKeepsWordClass(s, w, rep);
    if p + |w2| <= |s| && (WholeWordAt(s, w2, p) || WholeWordAt(r, w2, p)) {
      forall j | p <= j < p + |w2|
        ensures r[j] == s[j]
      {
        KeptUnderOtherWord(s, w, rep, w2, p, j);
      }
      assert r[p..p + |w2|] == s[p..p + |w2|];
      WholeWordTransfer(s, r, w2, p);
    }
  }

  lemma UntouchedAcross(s: string, w: string, rep: string, w2: string, j: int)
    requires |w| > 0 && AllWordChars(w) && AllWordChars(rep) && |rep| == |w|
    requires |w2| > 0 && AllWordChars(w2) && w2 != w && w2 != rep
    ensures Untouched(ReplaceWholeWord(s, w, rep), w2, j) <==> Untouched(s, w2, j)
  {
    forall p: nat | p <= j < p + |w2|
      ensures WholeWordAt(ReplaceWholeWord(s, w, rep), w2, p) <==> WholeWordAt(s, w2, p)
    {
      ReplaceKeepsOtherWord(s, w, rep, w2, p);
    }
  }

  /** A position under a whole-word match of one word is under no whole-word match of another. */
  lemma Disjoint(s: string, w1: string, w2: string, p: nat, j: int)
    requires |w1| > 0 && |w2| > 0 && AllWordChars(w1) && AllWordChars(w2) && w1 != w2
    requires WholeWordAt(s, w1, p) && p <= j < p + |w1|
    ensures Untouched(s, w2, j)
  {
    forall q | 0 <= q <= j < q + |w2|
      ensures !WholeWordAt(s, w2, q)
    {
      if WholeWordAt(s, w2, q) {
        OverlapSame(s, w1, w2, p, q);
        assert false;
      }
    }
  }

  /** The text after the first rewrite, and after the second. */
  function AfterNone(s: string): string {
    ReplaceWholeWord(s, "None", "null")
  }

  function AfterTrue(s: string): string {
    ReplaceWholeWord(AfterNone(s), "True", "true")
  }

  /** The three Python literals, in the order the source rewrites them. */
  function NormalizeLiterals(s: string): (r: string)
    ensures |r| == |s|
  {
    ReplaceWholeWord(AfterTrue(s), "False", "false")
  }

  lemma LiteralWords()
    ensures AllWordChars("None") && AllWordChars("null") && AllWordChars("True")
    ensures AllWordChars("true") && AllWordChars("False") && AllWordChars("false")
  {
  }

  /** A position no literal covers passes all three rewrites unchanged. */
  lemma NormalizeKeeps(s: string, j: nat)
    requires j < |s| && Untouched(s, "None", j) && Untouched(s, "True", j) && Untouched(s, "False", j)
    ensures NormalizeLiterals(s)[j] == s[j]
  {
    LiteralWords();
    var t1, t2 := AfterNone(s), AfterTrue(s);
    ReplaceFromKeeps(s, "None", "null", 0, j);
    UntouchedAcross(s, "None", "null", "True", j);
    ReplaceFromKeeps(t1, "True", "true", 0, j);
    UntouchedAcross(s, "None", "null", "False", j);
    UntouchedAcross(t1, "True", "true", "False", j);
    ReplaceFromKeeps(t2, "False", "false", 0, j);
  }

  lemma NormalizeNone(s: string, p: nat)
    requires WholeWordAt(s, "None", p)
    ensures NormalizeLiterals(s)[p..p + 4] == "null"
  {
    LiteralWords();
    var t1, t2, r := AfterNone(s), AfterTrue(s), NormalizeLiterals(s);
    ReplaceFromHits(s, "None", "null", 0, p);
    forall j | p <= j < p + 4
      ensures r[j] == t1[j]
    {
      Disjoint(s, "None", "True", p, j);
      Disjoint(s, "None", "False", p, j);
      UntouchedAcross(s, "None", "null", "True", j);
      ReplaceFromKeeps(t1, "True", "true", 0, j);
      UntouchedAcross(s, "None", "null", "False", j);
      UntouchedAcross(t1, "True", "true", "False", j);
      ReplaceFromKeeps(t2, "False", "false", 0, j);
    }
    assert r[p..p + 4] == t1[p..p + 4];
  }

  lemma NormalizeTrue(s: string, p: nat)
    requires WholeWordAt(s, "True", p)
    ensures NormalizeLiterals(s)[p..p + 4] == "true"
  {
    LiteralWords();
    var t1, t2, r := AfterNone(s), AfterTrue(s), NormalizeLiterals(s);
    ReplaceKeepsOtherWord(s, "None", "null", "True", p);
    ReplaceFromHits(t1, "True", "true", 0, p);
    forall j | p <= j < p + 4
      ensures r[j] == t2[j]
    {
      Disjoint(s, "True", "False", p, j);
      UntouchedAcross(s, "None", "null", "False", j);
      UntouchedAcross(t1, "True", "true", "False", j);
      ReplaceFromKeeps(t2, "False", "false", 0, j);
    }
    assert r[p..p + 4] == t2[p..p + 4];
  }

  lemma NormalizeFalse(s: string, p: nat)
    requires WholeWordAt(s, "False", p)
    ensures NormalizeLiterals(s)[p..p + 5] == "false"
  {
    LiteralWords();
    var t1 := AfterNone(s);
    ReplaceKeepsOtherWord(s, "None", "null", "False", p);
    ReplaceKeepsOtherWord(t1, "True", "true", "False", p);
    ReplaceFromHits(AfterTrue(s), "False", "false", 0, p);
  }

  /**
   * The Python-literal rewrite as a whole: the length is kept, each
   * whole-word `None`, `True` and `False` of the original text becomes
   * `null`, `true` and `false`, and every position under none of them keeps
   * its character.
   */
  lemma NormalizeLiteralsSpec(s: string)
    ensures |NormalizeLiterals(s)| == |s|
    ensures forall p | WholeWordAt(s, "None", p) :: NormalizeLiterals(s)[p..p + 4] == "null"
    ensures forall p | WholeWordAt(s, "True", p) :: NormalizeLiterals(s)[p..p + 4] == "true"
    ensures forall p | WholeWordAt(s, "False", p) :: NormalizeLiterals(s)[p..p + 5] == "false"
    ensures forall j | 0 <= j < |s| && Untouched(s, "None", j) && Untouched(s, "True", j) && Untouched(s, "False", j) ::
      NormalizeLiterals(s)[j] == s[j]
  {
    forall p | WholeWordAt(s, "None", p)
      ensures NormalizeLiterals(s)[p..p + 4] == "null"
    {
      NormalizeNone(s, p);
    }
    forall p | WholeWordAt(s, "True", p)
      ensures NormalizeLiterals(s)[p..p + 4] == "true"
    {
      NormalizeTrue(s, p);
    }
    forall p | WholeWordAt(s, "False", p)
      ensures NormalizeLiterals(s)[p..p + 5] == "false"
    {
      NormalizeFalse(s, p);
    }
    forall j | 0 <= j < |s| && Untouched(s, "None", j) && Untouched(s, "True", j) && Untouched(s, "False", j)
      ensures NormalizeLiterals(s)[j] == s[j]
    {
      NormalizeKeeps(s, j);
    }
  }

  /** A word whose first letter does not occur in the text matches nowhere. */
  lemma UntouchedWithoutInitial(s: string, w: string, j: int)
    requires |w| > 0 && forall k | 0 <= k < |s| :: s[k] != w[0]
    ensures Untouched(s, w, j)
  {
    forall p | 0 <= p <= j < p + |w|
      ensures !WholeWordAt(s, w, p)
    {
      if p < |s| && p + |w| <= |s| {
        assert s[p..p + |w|][0] == s[p];
      }
    }
  }

  /** A text without the capitals `N`, `T`, `F` has no Python literal to rewrite. */
  lemma NormalizeWithoutCapitals(s: string)
    requires forall k | 0 <= k < |s| :: s[k] != 'N' && s[k] != 'T' && s[k] != 'F'
    ensures NormalizeLiterals(s) == s
  {
    forall j | 0 <= j < |s|
      ensures Untouched(s, "None", j) && Untouched(s, "True", j) && Untouched(s, "False", j)
    {
      UntouchedWithoutInitial(s, "None", j);
      UntouchedWithoutInitial(s, "True", j);
      UntouchedWithoutInitial(s, "False", j);
    }
    NormalizeLiteralsSpec(s);
  }

  /** No character of `x` starts a Python literal. */
  predicate NoCapitals(x: string) {
    forall k | 0 <= k < |x| :: x[k] != 'N' && x[k] != 'T' && x[k] != 'F'
  }

  /** The three Python literals and the JSON literals they become. */
  predicate LiteralPair(w: string, rep: string) {
    (w == "None" && rep == "null") || (w == "True" && rep == "true") || (w == "False" && rep == "false")
  }

  /**
   * A text holding one Python literal, delimited by non-word characters and
   * with no other capital `N`, `T` or `F`: exactly that literal is rewritten.
   */
  lemma NormalizeSingleLiteral(a: string, w: string, rep: string, c: string)
    requires LiteralPair(w, rep) && NoCapitals(a) && NoCapitals(c)
    requires a == [] || !IsWordChar(a[|a| - 1])
    requires c == [] || !IsWordChar(c[0])
    ensures NormalizeLiterals(a + w + c) == a + rep + c
  {
    var s := a + w + c;
    LiteralRewritten(a, w, rep, c);
    forall j | 0 <= j < |s|
      ensures NormalizeLiterals(s)[j] == (a + rep + c)[j]
    {
      NormalizeSingleAt(a, w, rep, c, j);
    }
  }

  /** The one literal reads its JSON spelling after the rewrites. */
  lemma LiteralRewritten(a: string, w: string, rep: string, c: string)
    requires LiteralPair(w, rep)
    requires a == [] || !IsWordChar(a[|a| - 1])
    requires c == [] || !IsWordChar(c[0])
    ensures |NormalizeLiterals(a + w + c)| == |a + w + c|
    ensures NormalizeLiterals(a + w + c)[|a|..|a| + |w|] == rep
  {
    var s := a + w + c;
    LiteralInPlace(a, w, c);
    if w == "None" {
      NormalizeNone(s, |a|);
    } else if w == "True" {
      NormalizeTrue(s, |a|);
    } else {
      NormalizeFalse(s, |a|);
    }
  }

  /** The literal sits at `|a|` as a whole word. */
  lemma LiteralInPlace(a: string, w: string, c: string)
    requires w in {"None", "True", "False"}
    requires a == [] || !IsWordChar(a[|a| - 1])
    requires c == [] || !IsWordChar(c[0])
    ensures WholeWordAt(a + w + c, w, |a|)
  {
    var s := a + w + c;
    assert s[|a|..|a| + |w|] == w;
    assert s[|a|] == w[0];
    assert s[|a| + |w| - 1] == w[|w| - 1];
    if a != [] {
      assert s[|a| - 1] == a[|a| - 1];
    }
    if c != [] {
      assert s[|a| + |w|] == c[0];
    }
  }

  /** One position of the rewritten text: inside the literal it reads the JSON spelling, elsewhere the original character. */
  lemma NormalizeSingleAt(a: string, w: string, rep: string, c: string, j: nat)
    requires LiteralPair(w, rep) && NoCapitals(a) && NoCapitals(c)
    requires NormalizeLiterals(a + w + c)[|a|..|a| + |w|] == rep
    requires j < |a + w + c|
    ensures NormalizeLiterals(a + w + c)[j] == (a + rep + c)[j]
  {
    var s, n := a + w + c, NormalizeLiterals(a + w + c);
    if |a| <= j < |a| + |w| {
      assert n[j] == n[|a|..|a| + |w|][j - |a|];
    } else {
      LiteralAway(a, w, c, "None", j);
      LiteralAway(a, w, c, "True", j);
      LiteralAway(a, w, c, "False", j);
      NormalizeKeeps(s, j);
    }
  }

  /** Away from the one literal, no whole-word match of any Python literal covers position `j`. */
  lemma LiteralAway(a: string, w: string, c: string, v: string, j: nat)
    requires w in {"None", "True", "False"} && v in {"None", "True", "False"}
    requires NoCapitals(a) && NoCapitals(c)
    requires j < |a| || |a| + |w| <= j
    ensures Untouched(a + w + c, v, j)
  {
    var s := a + w + c;
    forall q | 0 <= q <= j < q + |v|
      ensures !WholeWordAt(s, v, q)
    {
      if q + |v| <= |s| {
        assert s[q..q + |v|][0] == s[q];
        if q < |a| {
          assert s[q] == a[q];
        } else if q >= |a| + |w| {
          assert s[q] == c[q - |a| - |w|];
        } else {
          assert s[q] == w[q - |a|];
        }
      }
    }
  }
}
